=== FILE: README.md ===
# A Dafny model of a Thompson-construction regex translator

This project models two pieces of a small regular-expression compiler written in Rust.

1. **The translator** (`src/translator.rs`). It walks a regular-expression syntax tree and builds a nondeterministic finite automaton by Thompson's construction:
   - a literal or character range becomes a two-state fragment;
   - a concatenation is a left fold that chains its children with epsilon edges;
   - an alternation puts fresh start and end states around its alternatives;
   - `*`, `+` and `?` wrap their operand between two fresh states.

   Every child fragment is merged into its parent with its state ids moved up by the parent's state count before the merge.
2. **The recursive-descent parser** (`src/parse_tree.rs`). It turns a string into a `ParseTree` of `Or`, `Concatenation`, `Star`, `Atom` and `Empty` nodes. It is not connected to the translator.

## Files

- `automaton.dfy` (module `Automata`): the automaton record. It holds a state count, a start state, an accepting set and the transitions in insertion order. It also has the operations the translator calls on it: `add_state`, `set_start_state`, `set_accepting`, `clear_accepting`, `add_transition` and `add_states_and_transitions` (here `Merge`). `src/automaton.rs` is not part of this model, so these operations are written from how the translator uses them.
- `regex_ast.dfy` (module `RegexAst`): the part of the syntax tree the translator distinguishes. Every shape it rejects keeps only a name.
- `translator.dfy` (module `Translator`): `build_tree` and its builders. They are pure functions returning `Ok(automaton)`, `Err(error)` or `Panic`. Each loop of the source is a recursive function over the index of the child.
- `composition.dfy` (module `Composition`): closed-form reference definitions of the concatenation, alternation and repetition automata. It proves that the builders produce exactly these automata, edge by edge.
- `verdict.dfy` (module `Verdicts`): an account of which trees translate, fail or abort, computed without building any automaton. It also proves that the greedy flag of a repetition and the negation flag of a bracketed class are never looked at.
- `parse_tree.dfy` (module `ParseTrees`): the parser over a string with an explicit position. It returns `Invalid` where the source panics. The file also proves the shapes the parser produces, how far it reads, and its quirks.

## What the model says

Translator:

- `Panic` stands for the source's two aborts:
  - the `panic!` on a counted repetition;
  - the `assert_eq!` that a child fragment has exactly one accepting state.

  Over the modelled tree, the `assert_eq!` fails for one shape only: a concatenation of nothing, which has no accepting state, used as an operand of a concatenation, alternation or repetition (`Verdicts.TranslationVerdict`). Such a tree has to be built by hand. The external parser gives an empty pattern or an empty group as an `Empty` node, not as an empty concatenation, and `build_tree` rejects `Empty` with `UnsupportedAst`.
- The translator never returns `ParserError`. Only `translate` produces it, and `translate` is outside this model.
- The source iterates a `HashSet` of symbols in `build_literal`. Its order is unspecified, so the model enumerates the set in ascending code order. Every contract about literals speaks of membership only.

Parser:

- Its quirks are kept as the code has them:
  - after a term, `build_tree` always consumes one char, so the `)` that closes a group is eaten there, and `(a)` is rejected while `(a))` is accepted;
  - a top-level char other than `|` after a term is dropped along with the rest of the input;
  - `\` is an ordinary char, so `\*` is a starred backslash.
- The end-of-input panic of `build_base` cannot be reached, because `build_base` is only called after `build_term` has seen a char. The only way a parse fails is a group whose body is not followed by `)` (`ParseTrees.BuildTree`: without `(` a parse never fails).

Behaviours of the code that a reader might not expect:

- **Lazy repetitions.** The greedy flag is never read. `a*?` is accepted and translated exactly like `a*` (`Verdicts.GreedinessIgnored`).
- **Negated classes.** The negation flag of a bracketed class is never read. `[^a-c]` is accepted and translated exactly like `[a-c]` (`Verdicts.NegationIgnored`).
- **Counted repetitions.** A counted repetition such as `a{2}` is not reported as an error. The code aborts with a panic, and only after the operand has translated (`Composition.RepetitionMatchesReference`).
- **Group flags.** The kind of a group is never read: `build_tree` translates only its content. `(?i:a)` is built exactly like `a`, and `(?U:a*)` exactly like `a*`. A bare flag setting such as `(?i)` is a separate `Flags` node, which is rejected as unsupported. The model's `Group` therefore keeps only its content.
- **Composition can abort.** Joining child fragments is not infallible. It aborts on a hand-built empty concatenation used as an operand, as described above.

## Model

| member | source | states |
|---|---|---|
| Automata.New | src/translator.rs:92 | a new automaton has no states, no accepting state and no transitions |
| Automata.SetStart | src/translator.rs:94 | only the start state changes, to the given id |
| Automata.ClearAccepting | src/translator.rs:115 | the accepting set becomes empty; states, start and transitions are kept |
| Automata.SetAccepting | src/translator.rs:116 | the given state is accepting exactly when the flag is set; every other state keeps its mark, and nothing else changes |
| Automata.AddTransition | src/translator.rs:107-111 | the edge is appended after every earlier transition, which keep their positions; states, start and accepting set are kept |
| Automata.Sole | src/translator.rs:102 | for a set with exactly one element, the returned id is that element: the set is exactly `{x}` |
| Automata.AddState | src/translator.rs:134-136 | `add_state` returns the old state count as the new id and grows the count by one, changing nothing else |
| Automata.Merge | src/translator.rs:103-104 | merging appends the child's states after the parent's; the child's transitions follow the parent's, moved up by the parent's state count before the merge; its accepting ids are moved up the same way; the parent's start is unchanged |
| Automata.MergeWellFormed | src/translator.rs:103-104 | merging two well-formed automata gives a well-formed one; every transition copied from the child lies within the child's new id range |
| Automata.MergeSplits | src/translator.rs:103-104 | merge is undone by splitting the transitions at the parent's length and moving the tail back down by the offset, which gives back the child's transitions |
| Automata.Unshift | src/translator.rs:103-104 | moving a transition list down by an offset succeeds exactly when every endpoint is at least the offset, and moving the result back up gives the list again |
| Automata.AddTransitionWellFormed | src/translator.rs:107-111 | an edge between existing states keeps the automaton well formed |
| Translator.Enumerate | src/translator.rs:231 | the loop's visiting order over the symbol set: every symbol exactly once and nothing else, here in ascending code order |
| Translator.AddSymbolTransitions | src/translator.rs:231-233 | one `from -> to` edge per symbol, appended in the visiting order after the existing transitions; states, start and accepting set are kept |
| Translator.LiteralStart | src/translator.rs:226-230 | the setup of `build_literal` gives two states, start 0, state 1 as the only accepting state and no edges, and returns the ids 0 and 1 |
| Translator.BuildLiteral | src/translator.rs:225-235 | exactly 2 states, start 0, accepting set {1}; one edge `0 -> 1` for each symbol of the set, pairwise distinct, and no other edge |
| Translator.ByteOf | src/translator.rs:83-84 | the `as u8` cast gives a value below 256 that differs from the code by a multiple of 256, so codes below 256 are unchanged |
| Translator.CodeRange | src/translator.rs:86 | the characters whose code lies between the two bounds, both included; the set has `hi - lo + 1` elements, or none when the bounds are reversed |
| Translator.BuildClassSetRange | src/translator.rs:82-87 | a literal with an edge on char c exactly when c's code lies between the truncated bounds; a reversed range gives two states and no edge |
| Translator.BuildClass | src/translator.rs:65-78 | succeeds exactly for a bracketed single range, whose automaton has an edge `0 -> 1` on c exactly when c's code lies between the truncated bounds, one edge per code; otherwise it reports the innermost unsupported part: item, set or class |
| Translator.BuildTree | src/translator.rs:53-63 | every automaton produced is well formed and starts in 0; it has exactly one accepting state unless the tree is an empty concatenation, which gives one state, no edge and no accepting state; a literal gives two states, accepting {1}, and the single edge `0 -> 1` on its char; a group gives exactly its content's translation; never a parser error. Every other node goes to its own builder (`Composition.TreeMatchesReference`) |
| Translator.BuildConcatenation | src/translator.rs:91-120 | start 0; one accepting state for a non-empty list; an empty list gives 1 state, no transitions and no accepting state |
| Translator.ConcatFold | src/translator.rs:98-117 | the loop from child i on keeps the start and well-formedness; with no child left it returns the automaton unchanged; after at least one child it has exactly one accepting state; it never reports a parser error |
| Translator.ConcatAppend | src/translator.rs:99-116 | one loop turn: the state count grows by exactly the child's count, the start is kept, and the returned new end is the only accepting state |
| Translator.BuildRepetition | src/translator.rs:130-183 | a result has start 0 and accepting set {1}, and is only produced for `?`, `*` and `+` |
| Translator.WrapRepetition | src/translator.rs:136-182 | succeeds exactly when the kind is not counted, with the fresh start and the fresh end as the only accepting state |
| Translator.AddLoopEdges | src/translator.rs:158-176 | succeeds exactly for `?`, `*` and `+`; it keeps every earlier transition in place and changes no state, start or accepting mark |
| Translator.BuildAlternation | src/translator.rs:185-223 | a result has start 0 and accepting set {1}, whatever the alternatives' accepting marks were |
| Translator.AltFold | src/translator.rs:190-216 | the loop from alternative i on keeps the start and well-formedness, never loses a state, and never reports a parser error |
| Translator.AltAppend | src/translator.rs:190-215 | one loop turn: the state count grows by exactly the alternative's count, and the start is kept |
| Composition.BuildChildren | src/translator.rs:98-100 | a success lists one fragment per child, in order; each is that child's own translation and has exactly one accepting state |
| Composition.BuildChildrenOutcome | src/translator.rs:98-100 | the children succeed exactly when every child translates to a fragment with one accepting state; otherwise the first child that does not decides: its error, or an abort when it aborted or has another number of accepting states |
| Composition.ConcatAppendLayout | src/translator.rs:101-116 | one loop turn gives exactly: the child's states after the accumulator's, the child's edges moved up by the old state count, then the epsilon edge from the old end to the child's moved start; the child's moved end becomes the only accepting state and the new end |
| Composition.ConcatStep | src/translator.rs:99-116 | one loop turn turns the closed-form concatenation of the first n children into that of the first n+1 |
| Composition.ConcatFoldAppends | src/translator.rs:98-117 | the concatenation loop appends the translated children one by one, or stops with the first child's error or abort |
| Composition.AppendAllConcat | src/translator.rs:98-117 | appending the remaining children to the concatenation of the first n gives the concatenation of all of them |
| Composition.ConcatenationMatchesReference | src/translator.rs:91-120 | `build_concatenation` gives exactly the closed-form concatenation of the translated children, or the first child's error or abort |
| Composition.ConcatOfLayout | src/translator.rs:91-120 | the closed-form concatenation has 1 + the sum of the children's states, start 0, the last child's moved end as its only accepting state, and every child's edges moved by its offset followed by the epsilon edge from the previous end to the child's moved start |
| Composition.ConcatenationShape | src/translator.rs:91-120 | when every child translates, `build_concatenation` succeeds with that layout |
| Composition.AltAppendLayout | src/translator.rs:194-215 | one loop turn gives exactly: the alternative's states after the accumulator's, its edges moved up by the old state count, then `start -> its moved start` and `its moved end -> end`; its moved end is added to the accepting set |
| Composition.AltStep | src/translator.rs:190-215 | one loop turn turns the closed-form alternation of the first n alternatives into that of the first n+1 |
| Composition.AltFoldAppends | src/translator.rs:190-216 | the alternation loop appends the translated alternatives one by one, or stops with the first error or abort |
| Composition.AlternationMatchesReference | src/translator.rs:185-223 | `build_alternation` gives exactly the closed-form alternation of the translated alternatives, or the first error or abort |
| Composition.AltOfLayout | src/translator.rs:185-223 | the closed-form alternation has 2 + the sum of the alternatives' states, start 0, accepting set {1}; every alternative's edges are moved by its offset and followed by `0 -> its start` and `its end -> 1` |
| Composition.AlternationShape | src/translator.rs:185-223 | when every alternative translates, `build_alternation` succeeds with that layout |
| Composition.AddLoopEdgesLayout | src/translator.rs:158-176 | `+` appends `1 -> 0`, `*` appends `0 -> 1` then `1 -> 0`, `?` appends `0 -> 1`, and a counted repetition aborts |
| Composition.WrapLayout | src/translator.rs:136-182 | wrapping a checked operand between states s and e of any accumulator gives exactly: the operand's edges moved up by the state count, `s -> its start`, `its end -> e`, then the kind's loop edges, with start s and e as the only accepting state; a counted kind aborts |
| Composition.WrapRepetitionLayout | src/translator.rs:136-182 | the wrapped repetition is the operand at offset 2, then `0 -> operand start`, `operand end -> 1` and the kind's loop edges; a counted kind aborts |
| Composition.RepetitionMatchesReference | src/translator.rs:130-183 | `build_repetition` propagates the operand's error or abort; it aborts on an operand without exactly one accepting state or on a counted kind; otherwise it gives exactly the closed-form repetition |
| Composition.TreeMatchesReference | src/translator.rs:53-63 | `build_tree` gives a concatenation or an alternation the closed form of its translated children, or their first failure; a repetition the closed-form repetition of its operand, with the operand's failure or an abort as `build_repetition` has them; a class the class builder's result; any other node an `UnsupportedAst` error naming it |
| Verdicts.TranslationVerdict | src/translator.rs:53-78 | the translation succeeds, reports an error (the same one) or aborts exactly as the tree-only verdict says |
| Verdicts.RepetitionVerdict | src/translator.rs:138-139 | a repetition fails as its operand does; otherwise it aborts exactly when the operand is an empty concatenation or the kind is counted |
| Verdicts.ConcatFoldVerdict | src/translator.rs:98-100 | the concatenation loop fails at the first failing child and aborts at the first empty concatenation, whatever it has built so far |
| Verdicts.AltFoldVerdict | src/translator.rs:190-192 | the alternation loop fails or aborts at its first failing alternative |
| Verdicts.GreedinessIgnored | src/translator.rs:56 | making every repetition greedy leaves the translation, automaton or error, unchanged |
| Verdicts.NegationIgnored | src/translator.rs:67 | making every bracketed class positive leaves the translation, automaton or error, unchanged |
| ParseTrees.From | src/parse_tree.rs:27-31 | empty input parses to `Empty`; input without `(` always parses; the tree has the grammar's shape and contains no `Question` or `Plus` |
| ParseTrees.BuildTree | src/parse_tree.rs:33-45 | a tree of the grammar's shape; it stops at the end of the input or just after a `)` it dropped; it cannot fail without a `(`; its `Or` nodes are given by `ParseTrees.TreeIsRightChain` |
| ParseTrees.TreeIsRightChain | src/parse_tree.rs:33-45 | a tree whose `|`-separated terms are t1 .. tn is `Or(t1, Or(t2, ... tn))`: each `|` joins the term before it with the parse of the rest; it stops where the terms stop and fails exactly when one of them does |
| ParseTrees.AlternativesParse | src/parse_tree.rs:35-42 | `a|b` parses as the `Or` of the one-factor terms for `a` and `b`, consuming all three chars |
| ParseTrees.BuildTerm | src/parse_tree.rs:47-67 | a left-nested `Concatenation` chain from `Empty`; it stops at `)`, `|` or the end without consuming it |
| ParseTrees.TermLoop | src/parse_tree.rs:49-65 | the term loop keeps the chain shape and stops only at `)`, `|` or the end |
| ParseTrees.BuildFactor | src/parse_tree.rs:69-78 | consumes at least one char and stops before a char that is not `*` |
| ParseTrees.StarLoop | src/parse_tree.rs:71-76 | consumes the whole run of `*` and never fails |
| ParseTrees.BuildBase | src/parse_tree.rs:80-94 | fails at the end of the input; any char other than `(`, `\` included, is read as the atom of that very char, consuming exactly it; a group succeeds only with its inner tree, just after the `)` that follows it |
| ParseTrees.TreesAreStarOnly | src/parse_tree.rs:33-94 | no tree of the parser's shapes contains `Question` or `Plus` |
| ParseTrees.TermIsLeftChain | src/parse_tree.rs:47-66 | a term with factors f1 .. fn is `Concatenation(... Concatenation(Empty, f1) ..., fn)` and ends where its factors end; it fails exactly when one of them does |
| ParseTrees.StarRun | src/parse_tree.rs:71-76 | the length of the run of `*` at a position: all `*`, followed by the end or another char |
| ParseTrees.FactorStars | src/parse_tree.rs:69-78 | a base followed by k `*` is the base under exactly k `Star` nodes, and the run is consumed |
| ParseTrees.GroupNeedsSecondClose | src/parse_tree.rs:35-43 | when a group body is one term stopping at `)`, that `)` is consumed by `build_tree`, and the group is accepted only if a second `)` follows |
| ParseTrees.ClosedGroupFails | src/parse_tree.rs:82-88 | `(a)` is rejected |
| ParseTrees.DoublyClosedGroupParses | src/parse_tree.rs:82-88 | `(a))` parses, consuming all four chars |
| ParseTrees.BackslashEscapesNothing | src/parse_tree.rs:90-91 | `\*` is a starred backslash atom |
| ParseTrees.TopLevelCloseDropsRest | src/parse_tree.rs:35-43 | in `a)b` the `)` is dropped and `b` is never read |
| ParseTrees.TreeLocal | src/parse_tree.rs:33-45 | a tree depends only on the chars it consumed, and on nothing after them unless it reached the end |
| ParseTrees.TermLocal | src/parse_tree.rs:47-67 | a term depends only on the chars it consumed and the one char it stopped at |
| ParseTrees.FactorLocal | src/parse_tree.rs:69-78 | a factor depends only on the chars it consumed and the one char it stopped at |
| ParseTrees.BaseLocal | src/parse_tree.rs:80-94 | a base depends only on the chars it consumed |
| ParseTrees.RestIgnored | src/parse_tree.rs:35-43 | when a top-level parse stops before the end, it stopped just after a dropped `)`, and replacing everything after it changes nothing |

## Left out

- `translate` and the external parser it calls (`src/translator.rs:46-51`). The syntax tree is a local datatype, and `ParserError` is never produced by what is modelled.
- The `Display` implementation of the errors (`src/translator.rs:19-42`). It only formats text.
- `src/automaton.rs` is not part of this model. Its operations are specified from how the translator uses them, and the start state of `Automaton::new()` is taken to be 0.
- The iteration order of the `HashSet` in `build_literal`. The model fixes ascending code order and states nothing that depends on it.
- Overflow of `usize` state ids. The model's integers are unbounded.
- Matching strings against the automaton. The source shown does not do it.
- The kind of a group (capturing, named, or non-capturing with flags). The translator reads only the group's content, so the model's `Group` holds only that.
- The payload of the errors is the modelled node, not the external library's node with its source spans.
- The stray `pub mod parse_tree;` declaration at `src/parse_tree.rs:1`.
- Translator.BuildRepetition: the contract on the result does not list the edges. `Composition.RepetitionMatchesReference` states them in full.
- Translator.BuildAlternation: the contract on the result does not list the edges. `Composition.AlternationMatchesReference` states them in full.

=== FILE: automaton.dfy ===
/**
  The automaton fragment that the Thompson construction grows and merges.

  The record stands for the crate's `Automaton` (its source file is not part
  of this model): a dense range of state ids `0 .. states`, a start state, a
  set of accepting states and the list of transitions in the order they were
  added. A transition whose symbol is `None` is an epsilon edge.

  Every operation is a pure function returning the updated record, so the
  mutable `&mut self` calls of the translator become a threaded value.
 */
module Automata {

  datatype Option<+T> = None | Some(value: T)

  datatype Transition = Transition(from: nat, to: nat, symbol: Option<char>)

  datatype Automaton = Automaton(
    states: nat,
    start: nat,
    accepting: set<nat>,
    transitions: seq<Transition>)

  /** The epsilon edge `from -> to`. */
  function Epsilon(from: nat, to: nat): Transition {
    Transition(from, to, None)
  }

  /** Every state id the automaton mentions lies below its state count. */
  ghost predicate WellFormed(a: Automaton) {
    && a.start < a.states
    && (forall s | s in a.accepting :: s < a.states)
    && (forall k | 0 <= k < |a.transitions| ::
          a.transitions[k].from < a.states && a.transitions[k].to < a.states)
  }

  /** A fragment as the translator's callers expect it: well formed, with exactly one accepting state. */
  ghost predicate Fragment(a: Automaton) {
    WellFormed(a) && |a.accepting| == 1
  }

  /** The single element of a one-element set (the `iter().next().unwrap()` of the translator). */
  function Sole(s: set<nat>): (x: nat)
    requires |s| == 1
    ensures s == {x}
  {
    var x :| x in s;
    SingletonHasOneElement(s, x);
    x
  }

  lemma SingletonHasOneElement(s: set<nat>, x: nat)
    requires |s| == 1 && x in s
    ensures s == {x}
  {
    var rest := s - {x};
    assert |rest| == 0;
    assert rest == {};
  }

  // ---------------------------------------------------------------------
  // Renumbering by an offset
  // ---------------------------------------------------------------------

  function Shift(t: Transition, offset: nat): Transition {
    Transition(t.from + offset, t.to + offset, t.symbol)
  }

  /** Every transition of `ts`, in order, with both endpoints moved up by `offset`. */
  function ShiftAll(ts: seq<Transition>, offset: nat): (r: seq<Transition>)
    ensures |r| == |ts|
    ensures forall k | 0 <= k < |ts| ::
              r[k].from == ts[k].from + offset && r[k].to == ts[k].to + offset
              && r[k].symbol == ts[k].symbol
  {
    seq(|ts|, k requires 0 <= k < |ts| => Shift(ts[k], offset))
  }

  /** Every state of `s` moved up by `offset`. */
  function ShiftSet(s: set<nat>, offset: nat): (r: set<nat>)
    ensures forall x :: x in r <==> x >= offset && x - offset in s
  {
    set x | x in s :: x + offset
  }

  // ---------------------------------------------------------------------
  // The primitive operations the translator calls
  // ---------------------------------------------------------------------

  /** `Automaton::new()`: no states, no transitions, nothing accepting. */
  function New(): (r: Automaton)
    ensures r.states == 0 && r.accepting == {} && r.transitions == []
  {
    Automaton(0, 0, {}, [])
  }

  /** `add_state`: the fresh id is the old state count, which grows by one. */
  function AddState(a: Automaton): (r: (Automaton, nat))
    ensures r.1 == a.states && r.0.states == a.states + 1
    ensures r.0.start == a.start && r.0.accepting == a.accepting
    ensures r.0.transitions == a.transitions
  {
    (a.(states := a.states + 1), a.states)
  }

  /** `set_start_state`. */
  function SetStart(a: Automaton, s: nat): (r: Automaton)
    ensures r.start == s
    ensures r.states == a.states && r.accepting == a.accepting && r.transitions == a.transitions
  {
    a.(start := s)
  }

  /** `set_accepting(s, on)`: marks or unmarks one state. */
  function SetAccepting(a: Automaton, s: nat, on: bool): (r: Automaton)
    ensures s in r.accepting <==> on
    ensures forall x | x != s :: x in r.accepting <==> x in a.accepting
    ensures r.states == a.states && r.start == a.start && r.transitions == a.transitions
  {
    if on then a.(accepting := a.accepting + {s}) else a.(accepting := a.accepting - {s})
  }

  /** `clear_accepting`. */
  function ClearAccepting(a: Automaton): (r: Automaton)
    ensures r.accepting == {}
    ensures r.states == a.states && r.start == a.start && r.transitions == a.transitions
  {
    a.(accepting := {})
  }

  /** `add_transition(from, to, symbol)`: appended after every existing transition. */
  function AddTransition(a: Automaton, from: nat, to: nat, symbol: Option<char>): (r: Automaton)
    ensures |r.transitions| == |a.transitions| + 1
    ensures r.transitions[..|a.transitions|] == a.transitions
    ensures r.transitions[|a.transitions|] == Transition(from, to, symbol)
    ensures r.states == a.states && r.start == a.start && r.accepting == a.accepting
  {
    a.(transitions := a.transitions + [Transition(from, to, symbol)])
  }

  /** Adding an edge between existing states keeps the automaton well formed. */
  lemma AddTransitionWellFormed(a: Automaton, from: nat, to: nat, symbol: Option<char>)
    requires WellFormed(a) && from < a.states && to < a.states
    ensures WellFormed(AddTransition(a, from, to, symbol))
  {
    var r := AddTransition(a, from, to, symbol);
    assert forall k | 0 <= k < |a.transitions| :: r.transitions[k] == a.transitions[k];
  }

  /**
    `add_states_and_transitions(b)`: appends `b`'s states after `a`'s and
    copies `b`'s transitions and accepting marks renumbered by `a`'s state
    count before the merge. No edge joins the two parts; `a`'s start stays.
   */
  function Merge(a: Automaton, b: Automaton): (r: Automaton)
    ensures r.states == a.states + b.states
    ensures r.start == a.start
    ensures |r.transitions| == |a.transitions| + |b.transitions|
    ensures r.transitions[..|a.transitions|] == a.transitions
    ensures forall k | 0 <= k < |b.transitions| ::
              r.transitions[|a.transitions| + k] == Shift(b.transitions[k], a.states)
    ensures forall x :: x in r.accepting <==>
              x in a.accepting || (x >= a.states && x - a.states in b.accepting)
  {
    Automaton(
      a.states + b.states,
      a.start,
      a.accepting + ShiftSet(b.accepting, a.states),
      a.transitions + ShiftAll(b.transitions, a.states))
  }

  /** Merging two well-formed automata gives a well-formed one, and `b`'s part occupies exactly `a.states .. a.states + b.states`. */
  lemma MergeWellFormed(a: Automaton, b: Automaton)
    requires WellFormed(a) && WellFormed(b)
    ensures WellFormed(Merge(a, b))
    ensures forall k | |a.transitions| <= k < |Merge(a, b).transitions| ::
              a.states <= Merge(a, b).transitions[k].from < a.states + b.states
              && a.states <= Merge(a, b).transitions[k].to < a.states + b.states
  {
    var r := Merge(a, b);
    forall k | 0 <= k < |r.transitions|
      ensures r.transitions[k].from < r.states && r.transitions[k].to < r.states
    {
      if k >= |a.transitions| {
        assert r.transitions[k] == Shift(b.transitions[k - |a.transitions|], a.states);
      } else {
        assert r.transitions[k] == a.transitions[k];
      }
    }
    forall k | |a.transitions| <= k < |r.transitions|
      ensures a.states <= r.transitions[k].from < a.states + b.states
      ensures a.states <= r.transitions[k].to < a.states + b.states
    {
      assert r.transitions[k] == Shift(b.transitions[k - |a.transitions|], a.states);
    }
  }

  /**
    Merge is undone by renumbering back: the transitions after `a`'s, moved
    down by `a.states`, are exactly `b`'s.
   */
  lemma MergeSplits(a: Automaton, b: Automaton)
    ensures Merge(a, b).transitions == a.transitions + ShiftAll(b.transitions, a.states)
    ensures Unshift(Merge(a, b).transitions[|a.transitions|..], a.states) == Some(b.transitions)
  {
    var r := Merge(a, b);
    var tail := r.transitions[|a.transitions|..];
    assert tail == ShiftAll(b.transitions, a.states);
    UnshiftShiftAll(b.transitions, a.states);
  }

  /** Moves every transition down by `offset`, or `None` if some endpoint lies below it. */
  function Unshift(ts: seq<Transition>, offset: nat): (r: Option<seq<Transition>>)
    ensures r.Some? <==> forall k | 0 <= k < |ts| :: ts[k].from >= offset && ts[k].to >= offset
    ensures r.Some? ==> ShiftAll(r.value, offset) == ts
  {
    if ts == [] then Some([])
    else if ts[0].from < offset || ts[0].to < offset then None
    else match Unshift(ts[1..], offset)
      case None => None
      case Some(rest) =>
        var t := Transition(ts[0].from - offset, ts[0].to - offset, ts[0].symbol);
        Some([t] + rest)
  }

  lemma UnshiftShiftAll(ts: seq<Transition>, offset: nat)
    ensures Unshift(ShiftAll(ts, offset), offset) == Some(ts)
  {
    var r := Unshift(ShiftAll(ts, offset), offset);
    assert r.Some?;
    var back := r.value;
    assert |back| == |ts|;
    forall k | 0 <= k < |ts| ensures back[k] == ts[k] {
      assert ShiftAll(back, offset)[k] == ShiftAll(ts, offset)[k];
      assert back[k].from == ts[k].from && back[k].to == ts[k].to;
    }
    assert back == ts;
  }
}

=== FILE: composition.dfy ===
/**
  Closed-form descriptions of the fragments the translator composes, and the
  proofs that the builders' loops produce exactly them.

  A builder's loop renumbers each child by the running state count. The
  reference definitions here instead place child `i` at the offset
  `base + SumTo(fs, i)` computed from the children alone, so they say
  where every state and edge ends up without replaying the loop.
 */
module Composition {
  import opened Automata
  import opened RegexAst
  import opened Translator

  // ---------------------------------------------------------------------
  // Children and offsets
  // ---------------------------------------------------------------------

  /** Every automaton of `fs` is a well-formed fragment. */
  ghost predicate Fragments(fs: seq<Automaton>) {
    forall k | 0 <= k < |fs| :: Fragment(fs[k])
  }

  /** The accepting state of a one-accepting-state automaton. */
  function End(f: Automaton): nat {
    if |f.accepting| == 1 then Sole(f.accepting) else 0
  }

  /** The total state count of the first `n` fragments of `fs`. */
  function SumTo(fs: seq<Automaton>, n: nat): nat
    requires n <= |fs|
  {
    if n == 0 then 0 else SumTo(fs, n - 1) + fs[n - 1].states
  }

  /** The number of edges the first `n` children contribute to a composite: their own plus `glue` joining edges each. */
  function EdgesTo(fs: seq<Automaton>, n: nat, glue: nat): nat
    requires n <= |fs|
  {
    if n == 0 then 0 else EdgesTo(fs, n - 1, glue) + |fs[n - 1].transitions| + glue
  }

  /**
    Every child of `asts` translated in order, each checked to have one
    accepting state as the source's `assert_eq!` does; the first failure
    wins.
   */
  function BuildChildren(asts: seq<Ast>): (r: Outcome<seq<Automaton>>)
    ensures r.Ok? ==> |r.value| == |asts|
    ensures r.Ok? ==> forall k | 0 <= k < |asts| :: BuildTree(asts[k]) == Ok(r.value[k])
    ensures r.Ok? ==> Fragments(r.value)
  {
    if asts == [] then Ok([])
    else
      match BuildTree(asts[0])
      case Err(e) => Err(e)
      case Panic => Panic
      case Ok(f) =>
        if |f.accepting| != 1 then Panic
        else
          match BuildChildren(asts[1..])
          case Ok(fs) =>
            assert forall k | 1 <= k < |asts| :: asts[k] == asts[1..][k - 1];
            Ok([f] + fs)
          case Err(e) => Err(e)
          case Panic => Panic
  }

  lemma BuildChildrenStep(asts: seq<Ast>, i: nat)
    requires i < |asts|
    ensures BuildTree(asts[i]).Err? ==> BuildChildren(asts[i..]) == Err(BuildTree(asts[i]).error)
    ensures BuildTree(asts[i]).Panic? ==> BuildChildren(asts[i..]) == Panic
    ensures BuildTree(asts[i]).Ok? && |BuildTree(asts[i]).value.accepting| != 1 ==>
              BuildChildren(asts[i..]) == Panic
    ensures BuildTree(asts[i]).Ok? && |BuildTree(asts[i]).value.accepting| == 1 ==>
              BuildChildren(asts[i..]) ==
                match BuildChildren(asts[i + 1..])
                case Ok(fs) => Ok([BuildTree(asts[i]).value] + fs)
                case Err(e) => Err(e)
                case Panic => Panic
  {
    assert asts[i..][0] == asts[i];
    assert asts[i..][1..] == asts[i + 1..];
  }

  /** The child `ast` translates to a fragment with one accepting state, as the `assert_eq!` after each child demands. */
  predicate Translates(ast: Ast) {
    BuildTree(ast).Ok? && |BuildTree(ast).value.accepting| == 1
  }

  /** Child `k` is the first of `asts` that does not translate to a fragment. */
  predicate FirstFailing(asts: seq<Ast>, k: nat)
    requires k < |asts|
  {
    !Translates(asts[k]) && forall j | 0 <= j < k :: Translates(asts[j])
  }

  /** How a child that is not a fragment stops the children: with its error, or with a panic. */
  function Failure(o: Outcome<Automaton>): Outcome<seq<Automaton>> {
    if o.Err? then Err(o.error) else Panic
  }

  /**
    The children succeed exactly when every child translates to a fragment;
    otherwise the first child that does not decides the outcome: its error,
    or a panic when it panicked or has other than one accepting state.
   */
  lemma {:induction false} BuildChildrenOutcome(asts: seq<Ast>)
    ensures BuildChildren(asts).Ok? <==> forall k | 0 <= k < |asts| :: Translates(asts[k])
    ensures forall k | 0 <= k < |asts| && FirstFailing(asts, k) :: BuildChildren(asts) == Failure(BuildTree(asts[k]))
    decreases |asts|
  {
    if asts != [] {
      var rest := asts[1..];
      BuildChildrenOutcome(rest);
      assert forall k | 1 <= k < |asts| :: asts[k] == rest[k - 1];
      forall k | 0 <= k < |asts| && FirstFailing(asts, k)
        ensures BuildChildren(asts) == Failure(BuildTree(asts[k]))
      {
        if k > 0 {
          assert FirstFailing(rest, k - 1);
        }
      }
    }
  }

  // ---------------------------------------------------------------------
  // Concatenation
  // ---------------------------------------------------------------------

  /**
    The end state of the concatenation of the first `n` children: state 0
    when there are none, else the `n`th child's end renumbered past state 0
    and the children before it.
   */
  function ConcatEnd(fs: seq<Automaton>, n: nat): nat
    requires n <= |fs|
  {
    if n == 0 then 0 else 1 + SumTo(fs, n - 1) + End(fs[n - 1])
  }

  /** The edges of the concatenation of the first `n` children: per child, its edges renumbered, then the epsilon edge into it. */
  function ConcatEdges(fs: seq<Automaton>, n: nat): seq<Transition>
    requires n <= |fs|
  {
    if n == 0 then []
    else
      var offset := 1 + SumTo(fs, n - 1);
      ConcatEdges(fs, n - 1) + ShiftAll(fs[n - 1].transitions, offset)
        + [Epsilon(ConcatEnd(fs, n - 1), offset + fs[n - 1].start)]
  }

  /** The concatenation of the first `n` children: start 0, the children laid out from state 1 on, accepting only the last end. */
  function ConcatPrefix(fs: seq<Automaton>, n: nat): Automaton
    requires n <= |fs|
  {
    Automaton(1 + SumTo(fs, n), 0, if n == 0 then {} else {ConcatEnd(fs, n)}, ConcatEdges(fs, n))
  }

  /** The concatenation of all of `fs`. */
  function ConcatOf(fs: seq<Automaton>): Automaton {
    ConcatPrefix(fs, |fs|)
  }

  /** One turn of the concatenation loop, on any accumulator: merge, glue the old end to the new start, accept only the new end. */
  lemma ConcatAppendLayout(acc: Automaton, end: nat, f: Automaton)
    requires WellFormed(acc) && end < acc.states && Fragment(f)
    ensures ConcatAppend(acc, end, f) == (
      Automaton(acc.states + f.states, acc.start, {acc.states + End(f)},
        acc.transitions + ShiftAll(f.transitions, acc.states) + [Epsilon(end, acc.states + f.start)]),
      acc.states + End(f))
  {
    var r := ConcatAppend(acc, end, f);
    assert Merge(acc, f).transitions == acc.transitions + ShiftAll(f.transitions, acc.states);
    assert r.0.accepting == {r.1};
  }

  /** One turn of the concatenation loop takes the concatenation of the first `n` children to that of the first `n + 1`. */
  lemma ConcatStep(fs: seq<Automaton>, n: nat)
    requires n < |fs| && Fragments(fs)
    requires WellFormed(ConcatPrefix(fs, n)) && ConcatEnd(fs, n) < ConcatPrefix(fs, n).states
    ensures ConcatAppend(ConcatPrefix(fs, n), ConcatEnd(fs, n), fs[n]) == (ConcatPrefix(fs, n + 1), ConcatEnd(fs, n + 1))
    ensures WellFormed(ConcatPrefix(fs, n + 1)) && ConcatEnd(fs, n + 1) < ConcatPrefix(fs, n + 1).states
  {
    ConcatAppendLayout(ConcatPrefix(fs, n), ConcatEnd(fs, n), fs[n]);
    var r := ConcatAppend(ConcatPrefix(fs, n), ConcatEnd(fs, n), fs[n]);
    assert WellFormed(r.0) && r.1 < r.0.states;
  }

  lemma ConcatStepWellFormed(fs: seq<Automaton>, n: nat)
    requires n < |fs| && Fragments(fs)
    requires WellFormed(ConcatPrefix(fs, n)) && ConcatEnd(fs, n) < ConcatPrefix(fs, n).states
    ensures WellFormed(ConcatPrefix(fs, n + 1)) && ConcatEnd(fs, n + 1) < ConcatPrefix(fs, n + 1).states
  {
    ConcatStep(fs, n);
  }

  lemma {:induction false} ConcatPrefixWellFormed(fs: seq<Automaton>, n: nat)
    requires n <= |fs| && Fragments(fs)
    ensures WellFormed(ConcatPrefix(fs, n))
    ensures ConcatEnd(fs, n) < ConcatPrefix(fs, n).states
  {
    if n > 0 {
      ConcatPrefixWellFormed(fs, n - 1);
      ConcatStepWellFormed(fs, n - 1);
    }
  }

  /** The concatenation loop body applied to the fragments `fs` in order, from the front. */
  function AppendAll(acc: Automaton, end: nat, fs: seq<Automaton>): (r: (Automaton, nat))
    requires WellFormed(acc) && end < acc.states && Fragments(fs)
    ensures WellFormed(r.0) && r.1 < r.0.states
    decreases |fs|
  {
    if fs == [] then (acc, end)
    else
      var next := ConcatAppend(acc, end, fs[0]);
      AppendAll(next.0, next.1, fs[1..])
  }

  /**
    The concatenation loop translates the remaining children and appends
    them in order; it fails exactly as translating the children does.
   */
  lemma {:induction false} ConcatFoldAppends(asts: seq<Ast>, i: nat, acc: Automaton, end: nat)
    requires i <= |asts| && WellFormed(acc) && end < acc.states
    ensures var r := ConcatFold(asts, i, acc, end);
      match BuildChildren(asts[i..])
      case Ok(rest) => r == Ok(AppendAll(acc, end, rest).0)
      case Err(e) => r == Err(e)
      case Panic => r == Panic
    decreases |asts| - i
  {
    if i == |asts| {
      assert asts[i..] == [];
    } else {
      BuildChildrenStep(asts, i);
      match BuildTree(asts[i])
      case Err(_) =>
      case Panic =>
      case Ok(f) =>
        if |f.accepting| == 1 {
          var next := ConcatAppend(acc, end, f);
          ConcatFoldAppends(asts, i + 1, next.0, next.1);
          match BuildChildren(asts[i + 1..])
          case Ok(rest) =>
            assert ([f] + rest)[1..] == rest;
          case Err(_) =>
          case Panic =>
        }
    }
  }

  /** Appending `rest` to the concatenation of `done` gives the concatenation of `done + rest`. */
  lemma FragmentsSuffix(fs: seq<Automaton>, n: nat)
    requires n <= |fs| && Fragments(fs)
    ensures Fragments(fs[n..])
  {
    assert forall k | 0 <= k < |fs| - n :: fs[n..][k] == fs[n + k];
  }

  /** One unfolding of `AppendAll` on the suffix of `fs` from `n`. */
  lemma AppendAllStep(acc: Automaton, end: nat, fs: seq<Automaton>, n: nat)
    requires WellFormed(acc) && end < acc.states && n < |fs| && Fragments(fs)
    ensures Fragments(fs[n..]) && Fragments(fs[n + 1..])
    ensures var next := ConcatAppend(acc, end, fs[n]);
      AppendAll(acc, end, fs[n..]) == AppendAll(next.0, next.1, fs[n + 1..])
  {
    FragmentsSuffix(fs, n);
    FragmentsSuffix(fs, n + 1);
    assert fs[n..][0] == fs[n] && fs[n..][1..] == fs[n + 1..];
  }

  /** Appending the children from `n` on to the concatenation of the first `n` gives the concatenation of all. */
  lemma {:induction false} AppendAllConcat(fs: seq<Automaton>, n: nat)
    requires n <= |fs| && Fragments(fs)
    requires WellFormed(ConcatPrefix(fs, n)) && ConcatEnd(fs, n) < ConcatPrefix(fs, n).states
    ensures Fragments(fs[n..])
    ensures AppendAll(ConcatPrefix(fs, n), ConcatEnd(fs, n), fs[n..]) == (ConcatOf(fs), ConcatEnd(fs, |fs|))
    decreases |fs| - n
  {
    FragmentsSuffix(fs, n);
    if n < |fs| {
      AppendAllStep(ConcatPrefix(fs, n), ConcatEnd(fs, n), fs, n);
      ConcatStep(fs, n);
      AppendAllConcat(fs, n + 1);
    } else {
      assert fs[n..] == [];
    }
  }

  /** `build_concatenation` starts its loop from a lone start state 0, which is also the first end. */
  lemma ConcatenationStart(asts: seq<Ast>)
    ensures BuildConcatenation(asts) == ConcatFold(asts, 0, Automaton(1, 0, {}, []), 0)
  {
    var (a0, startState) := AddState(New());
    var a1 := SetStart(a0, startState);
    assert a1 == Automaton(1, 0, {}, []) && startState == 0;
  }

  lemma WholeSlice<T>(s: seq<T>)
    ensures s[0..] == s
  {
  }

  /** `build_concatenation` builds exactly the closed-form concatenation of its children, or fails as the first failing child does. */
  lemma ConcatenationMatchesReference(asts: seq<Ast>)
    ensures var r := BuildConcatenation(asts);
      match BuildChildren(asts)
      case Ok(fs) => r == Ok(ConcatOf(fs))
      case Err(e) => r == Err(e)
      case Panic => r == Panic
  {
    var start := Automaton(1, 0, {}, []);
    assert WellFormed(start);
    ConcatenationStart(asts);
    ConcatFoldAppends(asts, 0, start, 0);
    WholeSlice(asts);
    match BuildChildren(asts)
    case Ok(fs) =>
      assert ConcatPrefix(fs, 0) == start;
      AppendAllConcat(fs, 0);
      WholeSlice(fs);
    case Err(e) =>
    case Panic =>
  }


  lemma {:induction false} ConcatEdgesLength(fs: seq<Automaton>, n: nat)
    requires n <= |fs|
    ensures |ConcatEdges(fs, n)| == EdgesTo(fs, n, 1)
  {
    if n > 0 {
      ConcatEdgesLength(fs, n - 1);
    }
  }

  /** An edge of the concatenation of the first `m` children keeps its position in every longer concatenation. */
  lemma {:induction false} ConcatEdgesKeep(fs: seq<Automaton>, m: nat, n: nat, k: nat)
    requires m <= n <= |fs| && k < |ConcatEdges(fs, m)|
    ensures k < |ConcatEdges(fs, n)| && ConcatEdges(fs, n)[k] == ConcatEdges(fs, m)[k]
    decreases n
  {
    if m < n {
      ConcatEdgesKeep(fs, m, n - 1, k);
    }
  }

  /**
    Child `i` of a concatenation occupies the edge positions from
    `EdgesTo(fs, i, 1)` on: its own edges in order, renumbered past state 0
    and the children before it, then the epsilon edge that enters it from
    the end of the children before it (from the start state 0 for the
    first child).
   */
  lemma ConcatChildLayout(fs: seq<Automaton>, i: nat, n: nat)
    requires i < n <= |fs|
    ensures var base := EdgesTo(fs, i, 1);
      var offset := 1 + SumTo(fs, i);
      var own := |fs[i].transitions|;
      && base + own < |ConcatEdges(fs, n)|
      && (forall k | 0 <= k < own :: ConcatEdges(fs, n)[base + k] == Shift(fs[i].transitions[k], offset))
      && ConcatEdges(fs, n)[base + own] == Epsilon(ConcatEnd(fs, i), offset + fs[i].start)
  {
    var own := |fs[i].transitions|;
    ConcatChildEdge(fs, i, n, own);
    forall k | 0 <= k < own
      ensures ConcatEdges(fs, n)[EdgesTo(fs, i, 1) + k] == Shift(fs[i].transitions[k], 1 + SumTo(fs, i))
    {
      ConcatChildEdge(fs, i, n, k);
    }
  }

  /** Edge `k` of child `i` (its entry edge when `k` is its edge count), as placed in the concatenation. */
  lemma ConcatChildEdge(fs: seq<Automaton>, i: nat, n: nat, k: nat)
    requires i < n <= |fs| && k <= |fs[i].transitions|
    ensures EdgesTo(fs, i, 1) + k < |ConcatEdges(fs, n)|
    ensures k < |fs[i].transitions| ==>
      ConcatEdges(fs, n)[EdgesTo(fs, i, 1) + k] == Shift(fs[i].transitions[k], 1 + SumTo(fs, i))
    ensures k == |fs[i].transitions| ==>
      ConcatEdges(fs, n)[EdgesTo(fs, i, 1) + k] == Epsilon(ConcatEnd(fs, i), 1 + SumTo(fs, i) + fs[i].start)
  {
    ConcatEdgesLength(fs, i);
    ConcatEdgesLast(fs, i + 1);
    ConcatEdgesKeep(fs, i + 1, n, EdgesTo(fs, i, 1) + k);
  }

  lemma ConcatEdgesLast(fs: seq<Automaton>, n: nat)
    requires 0 < n <= |fs|
    ensures var offset := 1 + SumTo(fs, n - 1);
      ConcatEdges(fs, n) == ConcatEdges(fs, n - 1) + ShiftAll(fs[n - 1].transitions, offset)
        + [Epsilon(ConcatEnd(fs, n - 1), offset + fs[n - 1].start)]
  {
  }

  /**
    `a` lays out the concatenation of `fs`: one start state 0 plus all the
    children's states, only the last child's end accepting (nothing when
    there is no child), and the children chained in order, each keeping its
    renumbered edges followed by the epsilon edge that enters it from the
    end of the one before.
   */
  ghost predicate ConcatLayout(a: Automaton, fs: seq<Automaton>) {
    && a.start == 0
    && a.states == 1 + SumTo(fs, |fs|)
    && |a.transitions| == EdgesTo(fs, |fs|, 1)
    && (|fs| == 0 ==> a.accepting == {})
    && (|fs| > 0 ==> a.accepting == {1 + SumTo(fs, |fs| - 1) + End(fs[|fs| - 1])})
    && forall i | 0 <= i < |fs| ::
         var base := EdgesTo(fs, i, 1);
         var offset := 1 + SumTo(fs, i);
         && base + |fs[i].transitions| < |a.transitions|
         && (forall k | 0 <= k < |fs[i].transitions| ::
               a.transitions[base + k] == Shift(fs[i].transitions[k], offset))
         && a.transitions[base + |fs[i].transitions|] == Epsilon(ConcatEnd(fs, i), offset + fs[i].start)
  }

  lemma ConcatOfLayout(fs: seq<Automaton>)
    ensures ConcatLayout(ConcatOf(fs), fs)
  {
    ConcatEdgesLength(fs, |fs|);
    forall i | 0 <= i < |fs|
      ensures var base := EdgesTo(fs, i, 1);
        var offset := 1 + SumTo(fs, i);
        && base + |fs[i].transitions| < |ConcatEdges(fs, |fs|)|
        && (forall k | 0 <= k < |fs[i].transitions| ::
              ConcatEdges(fs, |fs|)[base + k] == Shift(fs[i].transitions[k], offset))
        && ConcatEdges(fs, |fs|)[base + |fs[i].transitions|] == Epsilon(ConcatEnd(fs, i), offset + fs[i].start)
    {
      ConcatChildLayout(fs, i, |fs|);
    }
  }

  /** When every child translates to a fragment, `build_concatenation` succeeds with the concatenation layout of the children. */
  lemma ConcatenationShape(asts: seq<Ast>)
    requires BuildChildren(asts).Ok?
    ensures BuildConcatenation(asts).Ok?
    ensures ConcatLayout(BuildConcatenation(asts).value, BuildChildren(asts).value)
  {
    ConcatenationMatchesReference(asts);
    ConcatOfLayout(BuildChildren(asts).value);
  }

  // ---------------------------------------------------------------------
  // Alternation
  // ---------------------------------------------------------------------

  /**
    The edges of the alternation of the first `n` alternatives: per
    alternative, its edges renumbered past the start state 0, the end state
    1 and the alternatives before it, then the epsilon edge from 0 into it
    and the epsilon edge from its end to 1.
   */
  function AltEdges(fs: seq<Automaton>, n: nat): seq<Transition>
    requires n <= |fs|
  {
    if n == 0 then []
    else
      var offset := 2 + SumTo(fs, n - 1);
      var f := fs[n - 1];
      AltEdges(fs, n - 1) + ShiftAll(f.transitions, offset)
        + [Epsilon(0, offset + f.start), Epsilon(offset + End(f), 1)]
  }

  /** The accepting marks the alternation loop has merged in after `n` alternatives: every alternative's end, renumbered. */
  function AltMarks(fs: seq<Automaton>, n: nat): set<nat>
    requires n <= |fs|
  {
    if n == 0 then {} else AltMarks(fs, n - 1) + {2 + SumTo(fs, n - 1) + End(fs[n - 1])}
  }

  /** The alternation loop's automaton after the first `n` alternatives. */
  function AltPrefix(fs: seq<Automaton>, n: nat): Automaton
    requires n <= |fs|
  {
    Automaton(2 + SumTo(fs, n), 0, AltMarks(fs, n), AltEdges(fs, n))
  }

  /** The alternation of `fs`: start 0, accepting only the end state 1, the alternatives laid out from state 2 on. */
  function AltOf(fs: seq<Automaton>): Automaton {
    Automaton(2 + SumTo(fs, |fs|), 0, {1}, AltEdges(fs, |fs|))
  }

  /** One turn of the alternation loop, on any accumulator: merge, then the edges `startState -> its start` and `its end -> endState`. */
  lemma AltAppendLayout(acc: Automaton, f: Automaton, startState: nat, endState: nat)
    requires WellFormed(acc) && startState < acc.states && endState < acc.states && Fragment(f)
    ensures AltAppend(acc, f, startState, endState) ==
      Automaton(acc.states + f.states, acc.start, acc.accepting + {acc.states + End(f)},
        acc.transitions + ShiftAll(f.transitions, acc.states)
          + [Epsilon(startState, acc.states + f.start), Epsilon(acc.states + End(f), endState)])
  {
    var merged := Merge(acc, f);
    assert merged.transitions == acc.transitions + ShiftAll(f.transitions, acc.states);
    assert merged.accepting == acc.accepting + {acc.states + End(f)};
  }

  /** One turn of the alternation loop takes its automaton after `n` alternatives to the one after `n + 1`. */
  lemma AltStep(fs: seq<Automaton>, n: nat)
    requires n < |fs| && Fragments(fs) && WellFormed(AltPrefix(fs, n))
    ensures AltAppend(AltPrefix(fs, n), fs[n], 0, 1) == AltPrefix(fs, n + 1)
  {
    AltAppendLayout(AltPrefix(fs, n), fs[n], 0, 1);
  }

  lemma AltStepWellFormed(fs: seq<Automaton>, n: nat)
    requires n < |fs| && Fragments(fs) && WellFormed(AltPrefix(fs, n))
    ensures WellFormed(AltPrefix(fs, n + 1))
  {
    AltStep(fs, n);
  }

  /** The alternation loop body applied to the fragments `fs` in order, from the front. */
  function AltAppendAll(acc: Automaton, fs: seq<Automaton>): (r: Automaton)
    requires WellFormed(acc) && 1 < acc.states && Fragments(fs)
    ensures WellFormed(r)
    decreases |fs|
  {
    if |fs| == 0 then acc
    else AltAppendAll(AltAppend(acc, fs[0], 0, 1), fs[1..])
  }

  /**
    The alternation loop translates the remaining alternatives and appends
    them in order; it fails exactly as translating them does.
   */
  lemma {:induction false} AltFoldAppends(asts: seq<Ast>, i: nat, acc: Automaton)
    requires i <= |asts| && WellFormed(acc) && 1 < acc.states
    ensures var r := AltFold(asts, i, acc, 0, 1);
      match BuildChildren(asts[i..])
      case Ok(rest) => r == Ok(AltAppendAll(acc, rest))
      case Err(e) => r == Err(e)
      case Panic => r == Panic
    decreases |asts| - i
  {
    if i == |asts| {
      assert asts[i..] == [];
    } else {
      BuildChildrenStep(asts, i);
      match BuildTree(asts[i])
      case Err(_) =>
      case Panic =>
      case Ok(f) =>
        if |f.accepting| == 1 {
          AltFoldAppends(asts, i + 1, AltAppend(acc, f, 0, 1));
          match BuildChildren(asts[i + 1..])
          case Ok(rest) =>
            assert ([f] + rest)[1..] == rest;
          case Err(_) =>
          case Panic =>
        }
    }
  }

  /** One unfolding of `AltAppendAll` on the suffix of `fs` from `n`. */
  lemma AltAppendAllStep(acc: Automaton, fs: seq<Automaton>, n: nat)
    requires WellFormed(acc) && 1 < acc.states && n < |fs| && Fragments(fs)
    ensures Fragments(fs[n..]) && Fragments(fs[n + 1..])
    ensures AltAppendAll(acc, fs[n..]) == AltAppendAll(AltAppend(acc, fs[n], 0, 1), fs[n + 1..])
  {
    FragmentsSuffix(fs, n);
    FragmentsSuffix(fs, n + 1);
    assert fs[n..][0] == fs[n] && fs[n..][1..] == fs[n + 1..];
  }

  /** Appending the alternatives from `n` on to the loop's automaton after `n` gives the one after all of them. */
  lemma {:induction false} AltAppendAllPrefix(fs: seq<Automaton>, n: nat)
    requires n <= |fs| && Fragments(fs) && WellFormed(AltPrefix(fs, n))
    ensures Fragments(fs[n..])
    ensures AltAppendAll(AltPrefix(fs, n), fs[n..]) == AltPrefix(fs, |fs|)
    decreases |fs| - n
  {
    FragmentsSuffix(fs, n);
    if n < |fs| {
      AltAppendAllStep(AltPrefix(fs, n), fs, n);
      AltStep(fs, n);
      AltStepWellFormed(fs, n);
      AltAppendAllPrefix(fs, n + 1);
    } else {
      assert fs[n..] == [];
    }
  }

  /** The automaton `build_alternation` runs its loop from: a start state 0 and an end state 1, no edges, nothing accepting yet. */
  function AltSeed(): (a: Automaton)
    ensures WellFormed(a) && a.states == 2 && a.start == 0 && a.accepting == {} && a.transitions == []
  {
    Automaton(2, 0, {}, [])
  }

  /** `build_alternation` runs its loop from the start state 0 and the end state 1; when the loop succeeds, it makes 0 the start and 1 the only accepting state. */
  lemma AlternationFinish(asts: seq<Ast>, a: Automaton)
    requires AltFold(asts, 0, AltSeed(), 0, 1) == Ok(a)
    ensures BuildAlternation(asts) == Ok(Automaton(a.states, 0, {1}, a.transitions))
  {
    var (a0, startState) := AddState(New());
    var (a1, endState) := AddState(a0);
    assert a1 == AltSeed() && startState == 0 && endState == 1;
    var a3 := SetStart(a, startState);
    var a4 := SetAccepting(ClearAccepting(a3), endState, true);
    assert a4 == Automaton(a.states, 0, {1}, a.transitions);
  }

  /** A failing alternation loop fails `build_alternation` the same way. */
  lemma AlternationFails(asts: seq<Ast>)
    ensures var loop := AltFold(asts, 0, AltSeed(), 0, 1);
      !loop.Ok? ==> BuildAlternation(asts) == loop
  {
    var (a0, startState) := AddState(New());
    var (a1, endState) := AddState(a0);
    assert a1 == AltSeed() && startState == 0 && endState == 1;
  }

  /** When every alternative translates to a fragment, the loop ends in the loop's automaton after all of them. */
  lemma AltFoldSucceeds(asts: seq<Ast>, fs: seq<Automaton>)
    requires BuildChildren(asts) == Ok(fs)
    ensures Fragments(fs)
    ensures AltFold(asts, 0, AltSeed(), 0, 1) == Ok(AltPrefix(fs, |fs|))
  {
    var start := AltSeed();
    AltFoldAppends(asts, 0, start);
    WholeSlice(asts);
    assert AltPrefix(fs, 0) == start;
    AltAppendAllPrefix(fs, 0);
    WholeSlice(fs);
  }

  /** `build_alternation` builds exactly the closed-form alternation of its alternatives, or fails as the first failing one does. */
  lemma AlternationMatchesReference(asts: seq<Ast>)
    ensures var r := BuildAlternation(asts);
      match BuildChildren(asts)
      case Ok(fs) => r == Ok(AltOf(fs))
      case Err(e) => r == Err(e)
      case Panic => r == Panic
  {
    var start := AltSeed();
    match BuildChildren(asts)
    case Ok(fs) =>
      AltFoldSucceeds(asts, fs);
      AlternationFinish(asts, AltPrefix(fs, |fs|));
    case Err(e) =>
      AltFoldAppends(asts, 0, start);
      WholeSlice(asts);
      AlternationFails(asts);
    case Panic =>
      AltFoldAppends(asts, 0, start);
      WholeSlice(asts);
      AlternationFails(asts);
  }

  lemma {:induction false} AltEdgesLength(fs: seq<Automaton>, n: nat)
    requires n <= |fs|
    ensures |AltEdges(fs, n)| == EdgesTo(fs, n, 2)
  {
    if n > 0 {
      AltEdgesLength(fs, n - 1);
    }
  }

  /** An edge of the alternation of the first `m` alternatives keeps its position in every longer one. */
  lemma {:induction false} AltEdgesKeep(fs: seq<Automaton>, m: nat, n: nat, k: nat)
    requires m <= n <= |fs| && k < |AltEdges(fs, m)|
    ensures k < |AltEdges(fs, n)| && AltEdges(fs, n)[k] == AltEdges(fs, m)[k]
    decreases n
  {
    if m < n {
      AltEdgesKeep(fs, m, n - 1, k);
    }
  }

  lemma AltEdgesLast(fs: seq<Automaton>, n: nat)
    requires 0 < n <= |fs|
    ensures var offset := 2 + SumTo(fs, n - 1);
      var f := fs[n - 1];
      AltEdges(fs, n) == AltEdges(fs, n - 1) + ShiftAll(f.transitions, offset)
        + [Epsilon(0, offset + f.start), Epsilon(offset + End(f), 1)]
  {
  }

  /** Edge `k` of alternative `i` (its entry edge at `k` = its edge count, its exit edge one after), as placed in the alternation. */
  lemma AltChildEdge(fs: seq<Automaton>, i: nat, n: nat, k: nat)
    requires i < n <= |fs| && k <= |fs[i].transitions| + 1
    ensures EdgesTo(fs, i, 2) + k < |AltEdges(fs, n)|
    ensures var offset := 2 + SumTo(fs, i);
      var own := |fs[i].transitions|;
      var t := AltEdges(fs, n)[EdgesTo(fs, i, 2) + k];
      && (k < own ==> t == Shift(fs[i].transitions[k], offset))
      && (k == own ==> t == Epsilon(0, offset + fs[i].start))
      && (k == own + 1 ==> t == Epsilon(offset + End(fs[i]), 1))
  {
    AltOwnEdge(fs, i, k);
    AltEdgesKeep(fs, i + 1, n, EdgesTo(fs, i, 2) + k);
  }

  lemma AltOwnEdge(fs: seq<Automaton>, i: nat, k: nat)
    requires i < |fs| && k <= |fs[i].transitions| + 1
    ensures EdgesTo(fs, i, 2) + k < |AltEdges(fs, i + 1)|
    ensures var offset := 2 + SumTo(fs, i);
      var own := |fs[i].transitions|;
      var t := AltEdges(fs, i + 1)[EdgesTo(fs, i, 2) + k];
      && (k < own ==> t == Shift(fs[i].transitions[k], offset))
      && (k == own ==> t == Epsilon(0, offset + fs[i].start))
      && (k == own + 1 ==> t == Epsilon(offset + End(fs[i]), 1))
  {
    AltEdgesLength(fs, i);
    AltEdgesLast(fs, i + 1);
  }

  /**
    `a` lays out the alternation of `fs`: a start state 0 and an end state
    1, the only accepting one, then all the alternatives' states; alternative
    `i` occupies the edge positions from `EdgesTo(fs, i, 2)` on with its own
    edges renumbered in order, then the epsilon edge from 0 into its start,
    then the epsilon edge from its end to 1.
   */
  ghost predicate AltLayout(a: Automaton, fs: seq<Automaton>) {
    && a.start == 0
    && a.accepting == {1}
    && a.states == 2 + SumTo(fs, |fs|)
    && |a.transitions| == EdgesTo(fs, |fs|, 2)
    && forall i | 0 <= i < |fs| ::
         var base := EdgesTo(fs, i, 2);
         var offset := 2 + SumTo(fs, i);
         var own := |fs[i].transitions|;
         && base + own + 1 < |a.transitions|
         && (forall k | 0 <= k < own :: a.transitions[base + k] == Shift(fs[i].transitions[k], offset))
         && a.transitions[base + own] == Epsilon(0, offset + fs[i].start)
         && a.transitions[base + own + 1] == Epsilon(offset + End(fs[i]), 1)
  }

  lemma AltChildLayout(fs: seq<Automaton>, i: nat)
    requires i < |fs|
    ensures var base := EdgesTo(fs, i, 2);
      var offset := 2 + SumTo(fs, i);
      var own := |fs[i].transitions|;
      var edges := AltEdges(fs, |fs|);
      && base + own + 1 < |edges|
      && (forall k | 0 <= k < own :: edges[base + k] == Shift(fs[i].transitions[k], offset))
      && edges[base + own] == Epsilon(0, offset + fs[i].start)
      && edges[base + own + 1] == Epsilon(offset + End(fs[i]), 1)
  {
    var own := |fs[i].transitions|;
    AltChildEdge(fs, i, |fs|, own);
    AltChildEdge(fs, i, |fs|, own + 1);
    forall k | 0 <= k < own
      ensures AltEdges(fs, |fs|)[EdgesTo(fs, i, 2) + k] == Shift(fs[i].transitions[k], 2 + SumTo(fs, i))
    {
      AltChildEdge(fs, i, |fs|, k);
    }
  }

  lemma AltOfLayout(fs: seq<Automaton>)
    ensures AltLayout(AltOf(fs), fs)
  {
    AltEdgesLength(fs, |fs|);
    forall i | 0 <= i < |fs|
      ensures var base := EdgesTo(fs, i, 2);
        var offset := 2 + SumTo(fs, i);
        var own := |fs[i].transitions|;
        var edges := AltEdges(fs, |fs|);
        && base + own + 1 < |edges|
        && (forall k | 0 <= k < own :: edges[base + k] == Shift(fs[i].transitions[k], offset))
        && edges[base + own] == Epsilon(0, offset + fs[i].start)
        && edges[base + own + 1] == Epsilon(offset + End(fs[i]), 1)
    {
      AltChildLayout(fs, i);
    }
  }

  /** When every alternative translates to a fragment, `build_alternation` succeeds with the alternation layout of the alternatives. */
  lemma AlternationShape(asts: seq<Ast>)
    requires BuildChildren(asts).Ok?
    ensures BuildAlternation(asts).Ok?
    ensures AltLayout(BuildAlternation(asts).value, BuildChildren(asts).value)
  {
    AlternationMatchesReference(asts);
    AltOfLayout(BuildChildren(asts).value);
  }

  // ---------------------------------------------------------------------
  // Repetition
  // ---------------------------------------------------------------------

  /** The kinds that may match their operand zero times: `?` and `*`. */
  predicate MaySkip(kind: RepetitionKind) {
    kind == ZeroOrOne || kind == ZeroOrMore
  }

  /** The kinds that may match their operand more than once: `+` and `*`. */
  predicate MayRepeat(kind: RepetitionKind) {
    kind == OneOrMore || kind == ZeroOrMore
  }

  /** The loop edges between a repetition's start `s` and end `e`: the skip edge `s -> e`, then the back edge `e -> s`, each where the kind allows it. */
  function LoopEdges(kind: RepetitionKind, s: nat, e: nat): seq<Transition> {
    (if MaySkip(kind) then [Epsilon(s, e)] else []) + (if MayRepeat(kind) then [Epsilon(e, s)] else [])
  }

  /**
    The repetition of the fragment `f`: a start state 0 and an end state 1,
    the only accepting one, then `f` renumbered from state 2, entered from 0
    and left to 1 by epsilon edges, and the loop edges of the kind.
   */
  function RepetitionOf(kind: RepetitionKind, f: Automaton): Automaton {
    Automaton(2 + f.states, 0, {1},
      ShiftAll(f.transitions, 2) + [Epsilon(0, 2 + f.start), Epsilon(2 + End(f), 1)] + LoopEdges(kind, 0, 1))
  }

  /** The kind's `match` appends exactly the loop edges, or panics on a counted repetition. */
  lemma AddLoopEdgesLayout(a: Automaton, kind: RepetitionKind, s: nat, e: nat)
    requires WellFormed(a) && s < a.states && e < a.states
    ensures AddLoopEdges(a, kind, s, e) ==
      if kind.Counted? then Panic
      else Ok(Automaton(a.states, a.start, a.accepting, a.transitions + LoopEdges(kind, s, e)))
  {
    match kind
    case OneOrMore =>
      assert LoopEdges(kind, s, e) == [Epsilon(e, s)];
    case ZeroOrMore =>
      assert LoopEdges(kind, s, e) == [Epsilon(s, e), Epsilon(e, s)];
      assert a.transitions + [Epsilon(s, e)] + [Epsilon(e, s)] == a.transitions + [Epsilon(s, e), Epsilon(e, s)];
    case ZeroOrOne =>
      assert LoopEdges(kind, s, e) == [Epsilon(s, e)];
    case Counted(_) =>
  }

  /** The two edges that wire the renumbered operand in: `s -> its start`, then `its end -> e`. */
  lemma WireLayout(a: Automaton, s: nat, e: nat, f: Automaton)
    requires WellFormed(a) && s < a.states && e < a.states && Fragment(f)
    ensures var wired := AddTransition(AddTransition(Merge(a, f), s, f.start + a.states, None), End(f) + a.states, e, None);
      && WellFormed(wired)
      && wired.states == a.states + f.states
      && wired.transitions == a.transitions + ShiftAll(f.transitions, a.states)
           + [Epsilon(s, a.states + f.start), Epsilon(a.states + End(f), e)]
  {
    var merged := Merge(a, f);
    MergeWellFormed(a, f);
    assert merged.transitions == a.transitions + ShiftAll(f.transitions, a.states);
    var a2 := AddTransition(merged, s, f.start + a.states, None);
    AddTransitionWellFormed(merged, s, f.start + a.states, None);
    AddTransitionWellFormed(a2, End(f) + a.states, e, None);
  }

  /** Wrapping a checked operand between the states `s` and `e` of any accumulator, as `build_repetition` does after its check. */
  lemma WrapLayout(a: Automaton, s: nat, e: nat, kind: RepetitionKind, f: Automaton)
    requires WellFormed(a) && s < a.states && e < a.states && Fragment(f)
    ensures WrapRepetition(a, s, e, kind, f) ==
      if kind.Counted? then Panic
      else Ok(Automaton(a.states + f.states, s, {e},
        a.transitions + ShiftAll(f.transitions, a.states)
          + [Epsilon(s, a.states + f.start), Epsilon(a.states + End(f), e)] + LoopEdges(kind, s, e)))
  {
    var wired := AddTransition(AddTransition(Merge(a, f), s, f.start + a.states, None), End(f) + a.states, e, None);
    WireLayout(a, s, e, f);
    AddLoopEdgesLayout(wired, kind, s, e);
  }

  /** Wrapping a checked inner fragment between the states 0 and 1 of two fresh states gives the closed-form repetition, or panics on a counted one. */
  lemma WrapRepetitionLayout(a: Automaton, kind: RepetitionKind, f: Automaton)
    requires a.states == 2 && a.transitions == [] && WellFormed(a) && Fragment(f)
    ensures WrapRepetition(a, 0, 1, kind, f) == if kind.Counted? then Panic else Ok(RepetitionOf(kind, f))
  {
    WrapLayout(a, 0, 1, kind, f);
    assert [] + ShiftAll(f.transitions, 2) == ShiftAll(f.transitions, 2);
  }

  /**
    `build_repetition` translates its operand first, so an operand error or
    panic wins over the panic on a counted repetition; an operand with other
    than one accepting state panics; otherwise the result is the closed-form
    repetition.
   */
  lemma RepetitionMatchesReference(kind: RepetitionKind, inner: Ast)
    ensures var r := BuildRepetition(kind, inner);
      var operand := BuildTree(inner);
      && (operand.Err? ==> r == Err(operand.error))
      && (operand.Panic? ==> r == Panic)
      && (operand.Ok? && (|operand.value.accepting| != 1 || kind.Counted?) ==> r == Panic)
      && (operand.Ok? && |operand.value.accepting| == 1 && !kind.Counted? ==>
            r == Ok(RepetitionOf(kind, operand.value)))
  {
    var (a0, startState) := AddState(New());
    var (a1, endState) := AddState(a0);
    assert a1.states == 2 && a1.transitions == [] && WellFormed(a1) && startState == 0 && endState == 1;
    match BuildTree(inner)
    case Err(_) =>
    case Panic =>
    case Ok(f) =>
      if |f.accepting| == 1 {
        WrapRepetitionLayout(a1, kind, f);
      }
  }

  // ---------------------------------------------------------------------
  // The dispatch
  // ---------------------------------------------------------------------

  /**
    `build_tree` hands every node to its own builder: a concatenation or an
    alternation gives the closed form of its translated children, a
    repetition the closed-form repetition of its operand, a class the class
    builder's result, and any other node an `UnsupportedAst` error. Failures
    of the children pass through unchanged.
   */
  lemma TreeMatchesReference(ast: Ast)
    ensures ast.Concat? ==>
      var r := BuildTree(ast);
      match BuildChildren(ast.asts)
      case Ok(fs) => r == Ok(ConcatOf(fs))
      case Err(e) => r == Err(e)
      case Panic => r == Panic
    ensures ast.Alternation? ==>
      var r := BuildTree(ast);
      match BuildChildren(ast.asts)
      case Ok(fs) => r == Ok(AltOf(fs))
      case Err(e) => r == Err(e)
      case Panic => r == Panic
    ensures ast.Repetition? ==>
      var r := BuildTree(ast);
      var operand := BuildTree(ast.ast);
      && (operand.Err? ==> r == Err(operand.error))
      && (operand.Panic? ==> r == Panic)
      && (operand.Ok? && (|operand.value.accepting| != 1 || ast.kind.Counted?) ==> r == Panic)
      && (operand.Ok? && |operand.value.accepting| == 1 && !ast.kind.Counted? ==>
            r == Ok(RepetitionOf(ast.kind, operand.value)))
    ensures ast.ClassNode? ==> BuildTree(ast) == BuildClass(ast.cls)
    ensures ast.OtherAst? ==> BuildTree(ast) == Err(UnsupportedAst(ast))
  {
    match ast
    case Concat(asts) =>
      ConcatenationMatchesReference(asts);
    case Alternation(asts) =>
      AlternationMatchesReference(asts);
    case Repetition(kind, _, inner) =>
      RepetitionMatchesReference(kind, inner);
    case _ =>
  }
}

=== FILE: parse_tree.dfy ===
/**
  The hand-written recursive-descent parser of `parse_tree.rs`, which is not
  connected to the translator.

  The grammar it follows is
    tree   ::= term ( '|' tree )?
    term   ::= factor*            (stops at ')' or '|' or the end)
    factor ::= base '*'*
    base   ::= '(' tree ')' | any other char
  with three quirks that the model keeps: after a term, `build_tree`
  always consumes one more char, so the `)` that ends a group body is eaten
  there and the group then needs a second `)`; a char after a top-level
  term that is not `|` is dropped together with the rest of the input; and
  `\` is an ordinary char, not an escape.

  The source reads the input through a peekable iterator. Here the input is
  a string with an explicit position; each parser returns the tree and the
  position after what it consumed, or `Invalid` where the source panics.
 */
module ParseTrees {

  datatype ParseTree =
    | Or(left: ParseTree, right: ParseTree)
    | Concatenation(left: ParseTree, right: ParseTree)
    | Star(inner: ParseTree)
    | Question(inner: ParseTree)
    | Plus(inner: ParseTree)
    | Atom(c: char)
    | Empty

  /** A parse: the value read and the position after it, or the "Invalid regular expression" panic. */
  datatype Parsed<+T> = Parsed(value: T, pos: nat) | Invalid

  // ---------------------------------------------------------------------
  // The shapes the parser produces
  // ---------------------------------------------------------------------

  /** A right-nested chain of `Or` whose left operands and last right operand are terms. */
  predicate IsTree(t: ParseTree)
    decreases t, 1
  {
    match t
    case Or(left, right) => IsTerm(left) && IsTree(right)
    case _ => IsTerm(t)
  }

  /** `Empty`, or a left-nested chain of `Concatenation` that starts from `Empty` and adds factors. */
  predicate IsTerm(t: ParseTree)
    decreases t, 0
  {
    match t
    case Empty => true
    case Concatenation(left, right) => IsTerm(left) && IsFactor(right)
    case _ => false
  }

  /** A base under any number of `Star`s. */
  predicate IsFactor(t: ParseTree)
    decreases t, 1
  {
    match t
    case Star(inner) => IsFactor(inner)
    case _ => IsBase(t)
  }

  /** An atom that is not one of the grammar's own chars `(`, `)` and `|`, or a parenthesised tree. */
  predicate IsBase(t: ParseTree)
    decreases t, 0
  {
    match t
    case Atom(c) => c != '(' && c != ')' && c != '|'
    case Or(left, right) => IsTerm(left) && IsTree(right)
    case Concatenation(left, right) => IsTerm(left) && IsFactor(right)
    case Empty => true
    case _ => false
  }

  /** No `Question` and no `Plus` node anywhere in `t`. */
  predicate StarOnly(t: ParseTree) {
    match t
    case Or(left, right) => StarOnly(left) && StarOnly(right)
    case Concatenation(left, right) => StarOnly(left) && StarOnly(right)
    case Star(inner) => StarOnly(inner)
    case Question(_) => false
    case Plus(_) => false
    case Atom(_) => true
    case Empty => true
  }

  /** The grammar has no production for `?` or `+`: every tree of its shape is free of them. */
  lemma {:induction false} TreesAreStarOnly(t: ParseTree)
    ensures (IsTree(t) || IsTerm(t) || IsFactor(t) || IsBase(t)) ==> StarOnly(t)
  {
    match t
    case Or(left, right) =>
      assert !IsTerm(t) && IsFactor(t) == IsBase(t);
      TreesAreStarOnly(left);
      TreesAreStarOnly(right);
    case Concatenation(left, right) =>
      assert IsTree(t) == IsTerm(t) == IsBase(t) == IsFactor(t);
      TreesAreStarOnly(left);
      TreesAreStarOnly(right);
    case Star(inner) =>
      assert !IsTree(t) && !IsTerm(t) && !IsBase(t);
      TreesAreStarOnly(inner);
    case Question(_) =>
      assert !IsTree(t) && !IsTerm(t) && !IsFactor(t) && !IsBase(t);
    case Plus(_) =>
      assert !IsTree(t) && !IsTerm(t) && !IsFactor(t) && !IsBase(t);
    case Atom(_) =>
    case Empty =>
  }

  /** No char of `s` from `pos` on opens a group. */
  predicate NoGroupFrom(s: string, pos: nat) {
    forall k | pos <= k < |s| :: s[k] != '('
  }

  // ---------------------------------------------------------------------
  // The parser
  // ---------------------------------------------------------------------

  /**
    `ParseTree::from`: the tree at the start of the input. What follows the
    position it stops at is never read. Without any `(` the parse cannot fail.
   */
  function From(input: string): (r: Parsed<ParseTree>)
    ensures r.Parsed? ==> r.pos <= |input| && IsTree(r.value) && StarOnly(r.value)
    ensures |input| == 0 ==> r == Parsed(Empty, 0)
    ensures NoGroupFrom(input, 0) ==> r.Parsed?
  {
    var r := BuildTree(input, 0);
    assert |input| == 0 ==> BuildTerm(input, 0) == Parsed(Empty, 0);
    if r.Parsed? then TreesAreStarOnly(r.value); r else r
  }

  /**
    `build_tree`: a term, then one char consumed. If that char is `|` the
    rest is parsed as the right operand of an `Or`; any other char is
    dropped. So a parse stops either at the end or just after a `)`.
   */
  function BuildTree(s: string, pos: nat): (r: Parsed<ParseTree>)
    requires pos <= |s|
    ensures r.Parsed? ==> pos <= r.pos <= |s| && IsTree(r.value)
    ensures r.Parsed? ==> r.pos == |s| || (pos < r.pos && s[r.pos - 1] == ')')
    ensures NoGroupFrom(s, pos) ==> r.Parsed?
    decreases |s| - pos, 4
  {
    match BuildTerm(s, pos)
    case Invalid => Invalid
    case Parsed(term, p) =>
      if p == |s| then Parsed(term, p)
      else if s[p] == '|' then
        match BuildTree(s, p + 1)
        case Invalid => Invalid
        case Parsed(rest, q) => Parsed(Or(term, rest), q)
      else Parsed(term, p + 1)
  }

  /** `build_term`: factors until `)`, `|` or the end, none of which it consumes. */
  function BuildTerm(s: string, pos: nat): (r: Parsed<ParseTree>)
    requires pos <= |s|
    ensures r.Parsed? ==> pos <= r.pos <= |s| && IsTerm(r.value)
    ensures r.Parsed? ==> r.pos == |s| || s[r.pos] == ')' || s[r.pos] == '|'
    ensures NoGroupFrom(s, pos) ==> r.Parsed?
    decreases |s| - pos, 3
  {
    TermLoop(s, pos, Empty)
  }

  /** The `while let` loop of `build_term`, with `acc` the tree built so far. */
  function TermLoop(s: string, pos: nat, acc: ParseTree): (r: Parsed<ParseTree>)
    requires pos <= |s| && IsTerm(acc)
    ensures r.Parsed? ==> pos <= r.pos <= |s| && IsTerm(r.value)
    ensures r.Parsed? ==> r.pos == |s| || s[r.pos] == ')' || s[r.pos] == '|'
    ensures NoGroupFrom(s, pos) ==> r.Parsed?
    decreases |s| - pos, 2
  {
    if pos == |s| || s[pos] == ')' || s[pos] == '|' then Parsed(acc, pos)
    else
      match BuildFactor(s, pos)
      case Invalid => Invalid
      case Parsed(factor, p) => TermLoop(s, p, Concatenation(acc, factor))
  }

  /**
    `build_factor`: a base and then every `*` right after it. It consumes at
    least one char, and stops before a char that is not `*`.
   */
  function BuildFactor(s: string, pos: nat): (r: Parsed<ParseTree>)
    requires pos <= |s|
    ensures r.Parsed? ==> pos < r.pos <= |s|
    ensures r.Parsed? ==> r.pos == |s| || s[r.pos] != '*'
    ensures r.Parsed? && s[pos] != ')' && s[pos] != '|' ==> IsFactor(r.value)
    ensures pos < |s| && NoGroupFrom(s, pos) ==> r.Parsed?
    decreases |s| - pos, 1
  {
    match BuildBase(s, pos)
    case Invalid => Invalid
    case Parsed(base, p) => StarLoop(s, p, base)
  }

  /** The `while let Some('*')` loop of `build_factor`: each `*` wraps the tree once more. */
  function StarLoop(s: string, pos: nat, t: ParseTree): (r: Parsed<ParseTree>)
    requires pos <= |s|
    ensures r.Parsed? && pos <= r.pos <= |s|
    ensures r.pos == |s| || s[r.pos] != '*'
    ensures IsFactor(t) ==> IsFactor(r.value)
    decreases |s| - pos
  {
    if pos < |s| && s[pos] == '*' then StarLoop(s, pos + 1, Star(t))
    else Parsed(t, pos)
  }

  /**
    `build_base`: a group, or one char as an atom. It consumes at least one
    char or fails; it fails at the end of the input and when the char after
    the group's tree is not `)`.
   */
  function BuildBase(s: string, pos: nat): (r: Parsed<ParseTree>)
    requires pos <= |s|
    ensures r.Parsed? ==> pos < r.pos <= |s|
    ensures r.Parsed? && s[pos] != ')' && s[pos] != '|' ==> IsBase(r.value)
    ensures pos == |s| ==> r.Invalid?
    ensures pos < |s| && NoGroupFrom(s, pos) ==> r.Parsed?
    ensures pos < |s| && s[pos] != '(' ==> r == Parsed(Atom(s[pos]), pos + 1)
    ensures pos < |s| && s[pos] == '(' && r.Parsed? ==>
              var inner := BuildTree(s, pos + 1);
              inner.Parsed? && r.value == inner.value && r.pos == inner.pos + 1 && s[inner.pos] == ')'
    decreases |s| - pos, 0
  {
    if pos == |s| then Invalid
    else if s[pos] == '(' then
      match BuildTree(s, pos + 1)
      case Invalid => Invalid
      case Parsed(tree, p) => if p < |s| && s[p] == ')' then Parsed(tree, p + 1) else Invalid
    else if s[pos] == '\\' then Parsed(Atom('\\'), pos + 1)
    else Parsed(Atom(s[pos]), pos + 1)
  }

  // ---------------------------------------------------------------------
  // Terms are left-nested chains of factors
  // ---------------------------------------------------------------------

  /** The factors read one after another from `pos` until `)`, `|` or the end. */
  function Factors(s: string, pos: nat): (r: Parsed<seq<ParseTree>>)
    requires pos <= |s|
    ensures r.Parsed? ==> pos <= r.pos <= |s|
    decreases |s| - pos
  {
    if pos == |s| || s[pos] == ')' || s[pos] == '|' then Parsed([], pos)
    else
      match BuildFactor(s, pos)
      case Invalid => Invalid
      case Parsed(factor, p) =>
        match Factors(s, p)
        case Invalid => Invalid
        case Parsed(rest, q) => Parsed([factor] + rest, q)
  }

  /** `Concatenation(... Concatenation(Empty, f1) ..., fn)`. */
  function LeftChain(fs: seq<ParseTree>): ParseTree
    decreases |fs|
  {
    if |fs| == 0 then Empty else Concatenation(LeftChain(fs[..|fs| - 1]), fs[|fs| - 1])
  }

  lemma LeftChainSnoc(fs: seq<ParseTree>, f: ParseTree)
    ensures LeftChain(fs + [f]) == Concatenation(LeftChain(fs), f)
  {
    assert (fs + [f])[..|fs|] == fs;
  }

  /**
    The terms of a tree, separated by `|`, left to right, and the position
    the tree parse stops at: the end, or just after the char that ended the
    last term.
   */
  function Terms(s: string, pos: nat): (r: Parsed<seq<ParseTree>>)
    requires pos <= |s|
    ensures r.Parsed? ==> |r.value| >= 1 && pos <= r.pos <= |s|
    decreases |s| - pos
  {
    match BuildTerm(s, pos)
    case Invalid => Invalid
    case Parsed(term, p) =>
      if p < |s| && s[p] == '|' then
        match Terms(s, p + 1)
        case Invalid => Invalid
        case Parsed(rest, q) => Parsed([term] + rest, q)
      else Parsed([term], if p == |s| then p else p + 1)
  }

  /** The terms t1 .. tn hung off one another to the right: `Or(t1, Or(t2, ... tn))`. */
  function RightChain(ts: seq<ParseTree>): ParseTree
    requires |ts| >= 1
    decreases |ts|
  {
    if |ts| == 1 then ts[0] else Or(ts[0], RightChain(ts[1..]))
  }

  /**
    A tree whose terms are t1 .. tn is `Or(t1, Or(t2, ... tn))`: every `|`
    makes an `Or` of the term before it and the parse of everything after
    it. It stops where its terms stop, and fails exactly when one of them does.
   */
  lemma {:induction false} TreeIsRightChain(s: string, pos: nat)
    requires pos <= |s|
    ensures Terms(s, pos).Invalid? ==> BuildTree(s, pos).Invalid?
    ensures Terms(s, pos).Parsed? ==>
              BuildTree(s, pos) == Parsed(RightChain(Terms(s, pos).value), Terms(s, pos).pos)
    decreases |s| - pos
  {
    var term := BuildTerm(s, pos);
    if term.Parsed? && term.pos < |s| && s[term.pos] == '|' {
      TreeIsRightChain(s, term.pos + 1);
      var rest := Terms(s, term.pos + 1);
      if rest.Parsed? {
        assert ([term.value] + rest.value)[1..] == rest.value;
      }
    }
  }

  /** `a|b` is the `Or` of the two one-factor terms. */
  lemma AlternativesParse()
    ensures From("a|b") == Parsed(Or(Concatenation(Empty, Atom('a')), Concatenation(Empty, Atom('b'))), 3)
  {
    var s := "a|b";
    assert BuildTerm(s, 0) == Parsed(Concatenation(Empty, Atom('a')), 1) by {
      assert BuildFactor(s, 0) == Parsed(Atom('a'), 1);
    }
    assert BuildTerm(s, 2) == Parsed(Concatenation(Empty, Atom('b')), 3) by {
      assert BuildFactor(s, 2) == Parsed(Atom('b'), 3);
    }
  }

  /** A term whose factors are f1 .. fn is the chain of them hanging off `Empty`, and ends where they end. */
  lemma TermIsLeftChain(s: string, pos: nat)
    requires pos <= |s|
    ensures Factors(s, pos).Invalid? ==> BuildTerm(s, pos).Invalid?
    ensures Factors(s, pos).Parsed? ==>
              BuildTerm(s, pos) == Parsed(LeftChain(Factors(s, pos).value), Factors(s, pos).pos)
  {
    assert LeftChain([]) == Empty;
    TermLoopChain(s, pos, []);
    if Factors(s, pos).Parsed? {
      assert [] + Factors(s, pos).value == Factors(s, pos).value;
    }
  }

  /** One turn of the term loop reads one factor. */
  lemma TermLoopStep(s: string, pos: nat, acc: ParseTree)
    requires pos < |s| && s[pos] != ')' && s[pos] != '|' && IsTerm(acc)
    requires BuildFactor(s, pos).Parsed?
    ensures TermLoop(s, pos, acc) == TermLoop(s, BuildFactor(s, pos).pos, Concatenation(acc, BuildFactor(s, pos).value))
  {
  }

  /** `Factors` reads one factor and then the rest. */
  lemma FactorsStep(s: string, pos: nat)
    requires pos < |s| && s[pos] != ')' && s[pos] != '|'
    requires BuildFactor(s, pos).Parsed?
    ensures var f := BuildFactor(s, pos);
      var rest := Factors(s, f.pos);
      Factors(s, pos) == if rest.Parsed? then Parsed([f.value] + rest.value, rest.pos) else Invalid
  {
  }

  lemma {:induction false} TermLoopChain(s: string, pos: nat, done: seq<ParseTree>)
    requires pos <= |s| && IsTerm(LeftChain(done))
    ensures Factors(s, pos).Invalid? ==> TermLoop(s, pos, LeftChain(done)).Invalid?
    ensures Factors(s, pos).Parsed? ==>
              TermLoop(s, pos, LeftChain(done)) == Parsed(LeftChain(done + Factors(s, pos).value), Factors(s, pos).pos)
    decreases |s| - pos
  {
    if pos == |s| || s[pos] == ')' || s[pos] == '|' {
      assert done + [] == done;
    } else {
      var f := BuildFactor(s, pos);
      if f.Parsed? {
        var more := done + [f.value];
        LeftChainSnoc(done, f.value);
        TermLoopStep(s, pos, LeftChain(done));
        FactorsStep(s, pos);
        TermLoopChain(s, f.pos, more);
        var rest := Factors(s, f.pos);
        if rest.Parsed? {
          Reassociate(done, f.value, rest.value);
        }
      }
    }
  }

  lemma Reassociate<T>(done: seq<T>, x: T, rest: seq<T>)
    ensures done + [x] + rest == done + ([x] + rest)
  {
  }

  // ---------------------------------------------------------------------
  // Stars
  // ---------------------------------------------------------------------

  /** The number of `*` in the run that starts at `pos`. */
  function StarRun(s: string, pos: nat): (k: nat)
    requires pos <= |s|
    ensures pos + k <= |s|
    ensures forall j | pos <= j < pos + k :: s[j] == '*'
    ensures pos + k == |s| || s[pos + k] != '*'
    decreases |s| - pos
  {
    if pos < |s| && s[pos] == '*' then 1 + StarRun(s, pos + 1) else 0
  }

  /** `t` under `k` nested `Star`s. */
  function Stars(t: ParseTree, k: nat): ParseTree {
    if k == 0 then t else Star(Stars(t, k - 1))
  }

  lemma {:induction false} StarsInside(t: ParseTree, k: nat)
    ensures Stars(Star(t), k) == Stars(t, k + 1)
  {
    if k > 0 {
      StarsInside(t, k - 1);
    }
  }

  lemma {:induction false} StarLoopStars(s: string, pos: nat, t: ParseTree)
    requires pos <= |s|
    ensures StarLoop(s, pos, t) == Parsed(Stars(t, StarRun(s, pos)), pos + StarRun(s, pos))
    decreases |s| - pos
  {
    if pos < |s| && s[pos] == '*' {
      StarLoopStars(s, pos + 1, Star(t));
      StarsInside(t, StarRun(s, pos + 1));
    }
  }

  /** A base followed by a run of k `*` is the base under exactly k `Star`s, and the run is consumed. */
  lemma FactorStars(s: string, pos: nat)
    requires pos <= |s| && BuildBase(s, pos).Parsed?
    ensures var base := BuildBase(s, pos);
      BuildFactor(s, pos) == Parsed(Stars(base.value, StarRun(s, base.pos)), base.pos + StarRun(s, base.pos))
  {
    var base := BuildBase(s, pos);
    StarLoopStars(s, base.pos, base.value);
  }

  // ---------------------------------------------------------------------
  // Groups
  // ---------------------------------------------------------------------

  /**
    When the body of a group is one term that stops at a `)`, `build_tree`
    consumes that `)`, so the group is accepted only if a second `)`
    follows, and it then ends after both.
   */
  lemma GroupNeedsSecondClose(s: string, pos: nat)
    requires pos < |s| && s[pos] == '('
    requires BuildTerm(s, pos + 1).Parsed?
    requires BuildTerm(s, pos + 1).pos < |s| && s[BuildTerm(s, pos + 1).pos] == ')'
    ensures var close := BuildTerm(s, pos + 1).pos;
      BuildBase(s, pos) ==
        if close + 1 < |s| && s[close + 1] == ')' then Parsed(BuildTerm(s, pos + 1).value, close + 2)
        else Invalid
  {
  }

  /** `(a)` is rejected. */
  lemma ClosedGroupFails()
    ensures From("(a)") == Invalid
  {
    var s := "(a)";
    assert BuildTerm(s, 1) == Parsed(Concatenation(Empty, Atom('a')), 2) by {
      assert BuildFactor(s, 1) == Parsed(Atom('a'), 2);
    }
    GroupNeedsSecondClose(s, 0);
  }

  /** `(a))` parses as the one-factor term whose factor is the group's term. */
  lemma DoublyClosedGroupParses()
    ensures From("(a))") == Parsed(Concatenation(Empty, Concatenation(Empty, Atom('a'))), 4)
  {
    var s := "(a))";
    assert BuildTerm(s, 1) == Parsed(Concatenation(Empty, Atom('a')), 2) by {
      assert BuildFactor(s, 1) == Parsed(Atom('a'), 2);
    }
    GroupNeedsSecondClose(s, 0);
    assert BuildFactor(s, 0) == Parsed(Concatenation(Empty, Atom('a')), 4);
  }

  /** `\*` is a starred backslash: the backslash escapes nothing. */
  lemma BackslashEscapesNothing()
    ensures From("\\*") == Parsed(Concatenation(Empty, Star(Atom('\\'))), 2)
  {
    assert BuildFactor("\\*", 0) == Parsed(Star(Atom('\\')), 2);
  }

  /** After the top-level term `a`, the `)` is dropped and `b` is never read. */
  lemma TopLevelCloseDropsRest()
    ensures From("a)b") == Parsed(Concatenation(Empty, Atom('a')), 2)
  {
    assert BuildFactor("a)b", 0) == Parsed(Atom('a'), 1);
  }

  // ---------------------------------------------------------------------
  // How far the parser reads
  // ---------------------------------------------------------------------

  /** `s` and `t` both have at least `p` chars and agree on the first `p`. */
  predicate SamePrefix(s: string, t: string, p: nat) {
    p <= |s| && p <= |t| && forall k | 0 <= k < p :: s[k] == t[k]
  }

  /** They also agree on the one char after those: the same char, or the end in both. */
  predicate SameLookahead(s: string, t: string, p: nat) {
    SamePrefix(s, t, p) && (p == |s| <==> p == |t|) && (p < |s| ==> s[p] == t[p])
  }

  /**
    A tree is decided by the chars it consumed, and by nothing after them
    unless it stopped at the end of the input.
   */
  lemma {:induction false} TreeLocal(s: string, t: string, pos: nat)
    requires pos <= |s| && BuildTree(s, pos).Parsed?
    requires SamePrefix(s, t, BuildTree(s, pos).pos)
    requires BuildTree(s, pos).pos == |s| ==> |t| == |s|
    ensures BuildTree(t, pos) == BuildTree(s, pos)
    decreases |s| - pos, 4
  {
    var term := BuildTerm(s, pos);
    var p := term.pos;
    TermLocal(s, t, pos);
    if p < |s| && s[p] == '|' {
      TreeLocal(s, t, p + 1);
    }
  }

  /** A term is decided by the chars it consumed and the one it stopped at. */
  lemma {:induction false} TermLocal(s: string, t: string, pos: nat)
    requires pos <= |s| && BuildTerm(s, pos).Parsed?
    requires SameLookahead(s, t, BuildTerm(s, pos).pos)
    ensures BuildTerm(t, pos) == BuildTerm(s, pos)
    decreases |s| - pos, 3
  {
    TermLoopLocal(s, t, pos, Empty);
  }

  lemma {:induction false} TermLoopLocal(s: string, t: string, pos: nat, acc: ParseTree)
    requires pos <= |s| && IsTerm(acc) && TermLoop(s, pos, acc).Parsed?
    requires SameLookahead(s, t, TermLoop(s, pos, acc).pos)
    ensures TermLoop(t, pos, acc) == TermLoop(s, pos, acc)
    decreases |s| - pos, 2
  {
    if !(pos == |s| || s[pos] == ')' || s[pos] == '|') {
      var factor := BuildFactor(s, pos);
      TermLoopStep(s, pos, acc);
      FactorLocal(s, t, pos);
      TermLoopLocal(s, t, factor.pos, Concatenation(acc, factor.value));
      TermLoopStep(t, pos, acc);
    }
  }

  /** A factor is decided by the chars it consumed and the one it stopped at. */
  lemma {:induction false} FactorLocal(s: string, t: string, pos: nat)
    requires pos <= |s| && BuildFactor(s, pos).Parsed?
    requires SameLookahead(s, t, BuildFactor(s, pos).pos)
    ensures BuildFactor(t, pos) == BuildFactor(s, pos)
    decreases |s| - pos, 1
  {
    var base := BuildBase(s, pos);
    BaseLocal(s, t, pos);
    StarLoopLocal(s, t, base.pos, base.value);
  }

  lemma {:induction false} StarLoopLocal(s: string, t: string, pos: nat, tree: ParseTree)
    requires pos <= |s|
    requires SameLookahead(s, t, StarLoop(s, pos, tree).pos)
    ensures StarLoop(t, pos, tree) == StarLoop(s, pos, tree)
    decreases |s| - pos
  {
    if pos < |s| && s[pos] == '*' {
      StarLoopLocal(s, t, pos + 1, Star(tree));
    }
  }

  /** A base is decided by the chars it consumed alone. */
  lemma {:induction false} BaseLocal(s: string, t: string, pos: nat)
    requires pos <= |s| && BuildBase(s, pos).Parsed?
    requires SamePrefix(s, t, BuildBase(s, pos).pos)
    ensures BuildBase(t, pos) == BuildBase(s, pos)
    decreases |s| - pos, 0
  {
    if s[pos] == '(' {
      TreeLocal(s, t, pos + 1);
    }
  }

  /**
    When a top-level parse stops before the end, it has dropped a `)`, and
    whatever follows that `)` can be replaced by anything without changing
    the result.
   */
  lemma RestIgnored(s: string, rest: string)
    requires From(s).Parsed? && From(s).pos < |s|
    ensures s[From(s).pos - 1] == ')'
    ensures From(s[..From(s).pos] + rest) == From(s)
  {
    var p := From(s).pos;
    var t := s[..p] + rest;
    assert forall k | 0 <= k < p :: t[k] == s[k];
    TreeLocal(s, t, 0);
  }
}

=== FILE: regex_ast.dfy ===
/**
  The part of the regular-expression syntax tree the translator looks at.

  The crate takes this tree from an external parsing library; here it is a
  local datatype with one constructor per shape the translator tells apart.
  Shapes the translator rejects wholesale keep only a name, which the error
  then carries back to the caller.
 */
module RegexAst {

  /** The bounds of a counted repetition `{m}`, `{m,}` or `{m,n}`. */
  datatype RepetitionRange = Exactly(n: nat) | AtLeast(n: nat) | Bounded(m: nat, n: nat)

  datatype RepetitionKind =
    | ZeroOrOne                        // `?`
    | ZeroOrMore                       // `*`
    | OneOrMore                        // `+`
    | Counted(range: RepetitionRange)  // `{...}`

  /** One item of a bracketed class such as `[a-z]`. */
  datatype ClassSetItem =
    | Range(lo: char, hi: char)
    | OtherItem(name: string)    // empty, literal, ascii, unicode, perl, nested bracket, union

  datatype ClassSet =
    | Item(item: ClassSetItem)
    | OtherSet(name: string)     // a binary set operation such as `[a-z&&b]`

  /** A class: `[...]`, or `[^...]` when `negated`, or one of the escape forms. */
  datatype Class =
    | Bracketed(negated: bool, kind: ClassSet)
    | OtherClass(name: string)   // `\pL`, `\d` and the like

  datatype Ast =
    | Concat(asts: seq<Ast>)
    | Alternation(asts: seq<Ast>)
    | Repetition(kind: RepetitionKind, greedy: bool, ast: Ast)
    | Literal(c: char)
    | Group(ast: Ast)
    | ClassNode(cls: Class)
    | OtherAst(name: string)     // empty, flags, `.`, assertions

  /** A concatenation of nothing, possibly inside groups: the one tree that translates without an accepting state. */
  predicate EmptyConcat(ast: Ast) {
    match ast
    case Concat(asts) => |asts| == 0
    case Group(inner) => EmptyConcat(inner)
    case _ => false
  }
}

=== FILE: translator.dfy ===
/**
  Thompson's construction: one builder per syntax-tree shape, each returning
  an automaton fragment whose start state is 0.

  A child fragment is merged into its parent's automaton at an offset equal
  to the parent's state count just before the merge, and the builder then
  wires the renumbered child in with epsilon edges. The builders follow the
  statement order of the source, so the order of the transitions they add is
  the order of the source's `add_transition` calls.

  `Panic` stands for the two ways the source aborts instead of returning an
  error: the `panic!` on a counted repetition and the `assert_eq!` that each
  child fragment has exactly one accepting state.
 */
module Translator {
  import opened Automata
  import opened RegexAst

  datatype TranslatorError =
    | UnsupportedAst(ast: Ast)
    | UnsupportedClass(cls: Class)
    | UnsupportedClassSet(classSet: ClassSet)
    | UnsupportedClassSetItem(item: ClassSetItem)
    | ParserError(message: string)

  datatype Outcome<+T> = Ok(value: T) | Err(error: TranslatorError) | Panic

  // ---------------------------------------------------------------------
  // Literals and character classes
  // ---------------------------------------------------------------------

  lemma LeastExists(atoms: set<char>)
    requires atoms != {}
    ensures exists c :: c in atoms && forall d | d in atoms :: c as int <= d as int
    decreases atoms
  {
    var x :| x in atoms;
    if atoms != {x} {
      LeastExists(atoms - {x});
      var m :| m in atoms - {x} && forall d | d in atoms - {x} :: m as int <= d as int;
      var least := if x as int < m as int then x else m;
      forall d | d in atoms ensures least as int <= d as int {
        if d != x {
          assert d in atoms - {x};
        }
      }
    }
  }

  /** The character of `atoms` with the least code. */
  function Least(atoms: set<char>): (c: char)
    requires atoms != {}
    ensures c in atoms && forall d | d in atoms :: c as int <= d as int
  {
    LeastExists(atoms);
    var c :| c in atoms && forall d | d in atoms :: c as int <= d as int;
    c
  }

  /**
    The symbols of a set in ascending order of code. The source iterates a
    `HashSet`, whose order is unspecified; nothing below depends on this choice.
   */
  function Enumerate(atoms: set<char>): (r: seq<char>)
    ensures |r| == |atoms|
    ensures forall c :: c in r <==> c in atoms
    ensures forall i, j | 0 <= i < j < |r| :: r[i] as int < r[j] as int
    decreases atoms
  {
    if atoms == {} then []
    else
      var c := Least(atoms);
      var rest := Enumerate(atoms - {c});
      EnumerateStep(atoms, c, rest);
      [c] + rest
  }

  lemma EnumerateStep(atoms: set<char>, c: char, rest: seq<char>)
    requires c in atoms && forall d | d in atoms :: c as int <= d as int
    requires |rest| == |atoms - {c}|
    requires forall e :: e in rest <==> e in atoms - {c}
    requires forall i, j | 0 <= i < j < |rest| :: rest[i] as int < rest[j] as int
    ensures |[c] + rest| == |atoms|
    ensures forall e :: e in [c] + rest <==> e in atoms
    ensures forall i, j | 0 <= i < j < |[c] + rest| :: ([c] + rest)[i] as int < ([c] + rest)[j] as int
  {
    var r := [c] + rest;
    assert |atoms - {c}| == |atoms| - 1;
    forall e ensures e in r <==> e in atoms {
      assert e in r <==> e == c || e in rest;
    }
    forall i, j | 0 <= i < j < |r| ensures r[i] as int < r[j] as int {
      assert r[j] == rest[j - 1];
      if i > 0 {
        assert r[i] == rest[i - 1];
      } else {
        assert rest[j - 1] in atoms - {c};
      }
    }
  }

  /** The `for atom in atoms` loop of `build_literal`: one `from -> to` edge per symbol, in order. */
  function AddSymbolTransitions(a: Automaton, from: nat, to: nat, symbols: seq<char>): (r: Automaton)
    ensures r.states == a.states && r.start == a.start && r.accepting == a.accepting
    ensures |r.transitions| == |a.transitions| + |symbols|
    ensures r.transitions[..|a.transitions|] == a.transitions
    ensures forall k | 0 <= k < |symbols| ::
              r.transitions[|a.transitions| + k] == Transition(from, to, Some(symbols[k]))
    decreases |symbols|
  {
    if symbols == [] then a
    else AddSymbolTransitions(AddTransition(a, from, to, Some(symbols[0])), from, to, symbols[1..])
  }

  /**
    The first steps of `build_literal`: two fresh states, the second made
    accepting and the first made the start. Returns the automaton and the
    two state ids.
   */
  function LiteralStart(): (r: (Automaton, nat, nat))
    ensures r.0.states == 2 && r.0.start == 0 && r.0.accepting == {1} && r.0.transitions == []
    ensures r.1 == 0 && r.2 == 1
  {
    var (a0, startState) := AddState(New());
    var (a1, endState) := AddState(a0);
    var a2 := SetAccepting(a1, endState, true);
    var a3 := SetStart(a2, startState);
    assert a2.accepting == {1};
    (a3, startState, endState)
  }

  /**
    `build_literal`: two states, 0 the start and 1 the only accepting one,
    and one edge `0 -> 1` for each symbol of `atoms` and no other edge.
   */
  function BuildLiteral(atoms: set<char>): (r: Outcome<Automaton>)
    ensures r.Ok? && WellFormed(r.value)
    ensures r.value.states == 2 && r.value.start == 0 && r.value.accepting == {1}
    ensures |r.value.transitions| == |atoms|
    ensures forall t :: t in r.value.transitions <==>
              t.from == 0 && t.to == 1 && t.symbol.Some? && t.symbol.value in atoms
    ensures forall i, j | 0 <= i < j < |r.value.transitions| ::
              r.value.transitions[i] != r.value.transitions[j]
  {
    var (a3, startState, endState) := LiteralStart();
    var symbols := Enumerate(atoms);
    var a4 := AddSymbolTransitions(a3, startState, endState, symbols);
    SymbolsFromEmpty(a3, symbols);
    LiteralShape(atoms, symbols, a4);
    Ok(a4)
  }

  /** Symbol edges added to an automaton without transitions sit at the symbols' own positions. */
  lemma SymbolsFromEmpty(a: Automaton, symbols: seq<char>)
    requires a.states == 2 && a.start == 0 && a.accepting == {1} && a.transitions == []
    ensures var r := AddSymbolTransitions(a, 0, 1, symbols);
      && r.states == 2 && r.start == 0 && r.accepting == {1}
      && |r.transitions| == |symbols|
      && forall k | 0 <= k < |symbols| :: r.transitions[k] == Transition(0, 1, Some(symbols[k]))
  {
  }

  lemma LiteralShape(atoms: set<char>, symbols: seq<char>, a: Automaton)
    requires |symbols| == |atoms|
    requires forall c :: c in symbols <==> c in atoms
    requires forall i, j | 0 <= i < j < |symbols| :: symbols[i] as int < symbols[j] as int
    requires a.states == 2 && a.start == 0 && a.accepting == {1}
    requires |a.transitions| == |symbols|
    requires forall k | 0 <= k < |symbols| :: a.transitions[k] == Transition(0, 1, Some(symbols[k]))
    ensures WellFormed(a)
    ensures forall t :: t in a.transitions <==>
              t.from == 0 && t.to == 1 && t.symbol.Some? && t.symbol.value in atoms
    ensures forall i, j | 0 <= i < j < |a.transitions| :: a.transitions[i] != a.transitions[j]
  {
    SymbolEdges(a.transitions, symbols, atoms);
  }

  lemma SymbolEdges(ts: seq<Transition>, symbols: seq<char>, atoms: set<char>)
    requires |ts| == |symbols|
    requires forall k | 0 <= k < |symbols| :: ts[k] == Transition(0, 1, Some(symbols[k]))
    requires forall c :: c in symbols <==> c in atoms
    requires forall i, j | 0 <= i < j < |symbols| :: symbols[i] as int < symbols[j] as int
    ensures forall t :: t in ts <==>
              t.from == 0 && t.to == 1 && t.symbol.Some? && t.symbol.value in atoms
    ensures forall i, j | 0 <= i < j < |ts| :: ts[i] != ts[j]
  {
    forall t ensures t in ts <==> t.from == 0 && t.to == 1 && t.symbol.Some? && t.symbol.value in atoms {
      if t in ts {
        var k :| 0 <= k < |ts| && ts[k] == t;
        assert symbols[k] in symbols;
      }
      if t.from == 0 && t.to == 1 && t.symbol.Some? && t.symbol.value in atoms {
        var k :| 0 <= k < |symbols| && symbols[k] == t.symbol.value;
        assert ts[k] == t;
      }
    }
    forall i, j | 0 <= i < j < |ts| ensures ts[i] != ts[j] {
      assert ts[i].symbol.value != ts[j].symbol.value;
    }
  }

  /** The truncating `as u8` cast of a character: its code modulo 256. */
  function ByteOf(c: char): (b: nat)
    ensures b < 256
    ensures (c as int - b) % 256 == 0
    ensures c as int < 256 ==> b == c as int
  {
    (c as int) % 256
  }

  /** The characters whose codes lie in `lo ..= hi`, for codes below 256. */
  function CodeRange(lo: nat, hi: nat): (r: set<char>)
    requires hi < 256
    ensures forall c :: c in r <==> lo <= c as int <= hi
    ensures |r| == if lo <= hi then hi - lo + 1 else 0
    decreases hi + 1 - lo
  {
    if lo > hi then {}
    else
      var rest := CodeRange(lo + 1, hi);
      assert (lo as char) !in rest;
      {lo as char} + rest
  }

  /**
    `build_class_set_range`: a literal over every character whose code lies
    between the truncated codes of the two endpoints, both included. A
    reversed range is not rejected; it yields two states and no edge.
   */
  function BuildClassSetRange(lo: char, hi: char): (r: Outcome<Automaton>)
    ensures r.Ok? && WellFormed(r.value)
    ensures r.value.states == 2 && r.value.start == 0 && r.value.accepting == {1}
    ensures forall c :: Transition(0, 1, Some(c)) in r.value.transitions <==>
              ByteOf(lo) <= c as int <= ByteOf(hi)
    ensures |r.value.transitions| == if ByteOf(lo) <= ByteOf(hi) then ByteOf(hi) - ByteOf(lo) + 1 else 0
  {
    var startAtom := ByteOf(lo);
    var endAtom := ByteOf(hi);
    BuildLiteral(CodeRange(startAtom, endAtom))
  }

  /** `build_class`: only a bracketed class made of a single range is supported. */
  function BuildClass(cls: Class): (r: Outcome<Automaton>)
    ensures r.Ok? <==> cls.Bracketed? && cls.kind.Item? && cls.kind.item.Range?
    ensures r.Ok? ==> WellFormed(r.value) && r.value.states == 2 && r.value.start == 0 && r.value.accepting == {1}
    ensures cls.OtherClass? ==> r == Err(UnsupportedClass(cls))
    ensures cls.Bracketed? && cls.kind.OtherSet? ==> r == Err(UnsupportedClassSet(cls.kind))
    ensures cls.Bracketed? && cls.kind.Item? && cls.kind.item.OtherItem? ==>
              r == Err(UnsupportedClassSetItem(cls.kind.item))
    ensures r.Ok? ==> forall c :: Transition(0, 1, Some(c)) in r.value.transitions <==>
              ByteOf(cls.kind.item.lo) <= c as int <= ByteOf(cls.kind.item.hi)
    ensures r.Ok? ==>
              var lo, hi := ByteOf(cls.kind.item.lo), ByteOf(cls.kind.item.hi);
              |r.value.transitions| == if lo <= hi then hi - lo + 1 else 0
  {
    match cls
    case Bracketed(_, kind) =>
      (match kind
       case Item(item) =>
         (match item
          case Range(lo, hi) => BuildClassSetRange(lo, hi)
          case OtherItem(_) => Err(UnsupportedClassSetItem(item)))
       case OtherSet(_) => Err(UnsupportedClassSet(kind)))
    case OtherClass(_) => Err(UnsupportedClass(cls))
  }

  // ---------------------------------------------------------------------
  // The recursive dispatch
  // ---------------------------------------------------------------------

  /**
    `build_tree`. Every automaton it returns is well formed and starts in
    state 0; it has exactly one accepting state unless the tree is an empty
    concatenation, which has none. It never reports a parser error.
   */
  function BuildTree(ast: Ast): (r: Outcome<Automaton>)
    ensures r.Ok? ==> WellFormed(r.value) && r.value.start == 0
    ensures r.Ok? && !EmptyConcat(ast) ==> |r.value.accepting| == 1
    ensures r.Ok? && EmptyConcat(ast) ==>
              r.value.states == 1 && r.value.accepting == {} && r.value.transitions == []
    ensures r.Err? ==> !r.error.ParserError?
    ensures ast.Literal? ==>
              r.Ok? && r.value.states == 2 && r.value.accepting == {1} &&
              r.value.transitions == [Transition(0, 1, Some(ast.c))]
    ensures ast.Group? ==> r == BuildTree(ast.ast)
    decreases ast, 0
  {
    match ast
    case Concat(asts) => BuildConcatenation(asts)
    case Repetition(kind, _, inner) => BuildRepetition(kind, inner)
    case Literal(c) =>
      var r := BuildLiteral({c});
      assert |r.value.accepting| == 1;
      assert r.value.transitions[0] in r.value.transitions;
      r
    case Alternation(asts) => BuildAlternation(asts)
    case Group(inner) => BuildTree(inner)
    case ClassNode(cls) => BuildClass(cls)
    case OtherAst(_) => Err(UnsupportedAst(ast))
  }

  /** `build_concatenation`: a start state 0, then the children folded in from the left. */
  function BuildConcatenation(asts: seq<Ast>): (r: Outcome<Automaton>)
    ensures r.Ok? ==> WellFormed(r.value) && r.value.start == 0
    ensures r.Ok? && |asts| > 0 ==> |r.value.accepting| == 1
    ensures r.Ok? && |asts| == 0 ==>
              r.value.states == 1 && r.value.accepting == {} && r.value.transitions == []
    ensures r.Err? ==> !r.error.ParserError?
    decreases asts, |asts| + 1
  {
    var (a0, startState) := AddState(New());
    var a1 := SetStart(a0, startState);
    ConcatFold(asts, 0, a1, startState)
  }

  /** The concatenation loop over the children from index `i` on, with `end` the current end state. */
  function ConcatFold(asts: seq<Ast>, i: nat, acc: Automaton, end: nat): (r: Outcome<Automaton>)
    requires i <= |asts|
    requires WellFormed(acc) && end < acc.states
    ensures r.Ok? ==> WellFormed(r.value) && r.value.start == acc.start
    ensures r.Ok? && i == |asts| ==> r.value == acc
    ensures r.Ok? && i < |asts| ==> |r.value.accepting| == 1
    ensures r.Err? ==> !r.error.ParserError?
    decreases asts, |asts| - i
  {
    if i == |asts| then Ok(acc)
    else
      match BuildTree(asts[i])
      case Err(e) => Err(e)
      case Panic => Panic
      case Ok(child) =>
        if |child.accepting| != 1 then Panic
        else
          var (appended, newEnd) := ConcatAppend(acc, end, child);
          ConcatFold(asts, i + 1, appended, newEnd)
  }

  /**
    The body of the concatenation loop for one translated child: merge it at
    the current state count, join the current end to its renumbered start,
    and make its renumbered end the new and only accepting state.
   */
  function ConcatAppend(acc: Automaton, end: nat, child: Automaton): (r: (Automaton, nat))
    requires WellFormed(acc) && end < acc.states
    requires Fragment(child)
    ensures WellFormed(r.0) && r.1 < r.0.states && r.0.accepting == {r.1}
    ensures r.0.start == acc.start && r.0.states == acc.states + child.states
  {
    var childStart := child.start;
    var childEnd := Sole(child.accepting);
    var offset := acc.states;
    var merged := Merge(acc, child);
    MergeWellFormed(acc, child);
    var glued := AddTransition(merged, end, childStart + offset, None);
    AddTransitionWellFormed(merged, end, childStart + offset, None);
    var newEnd := childEnd + offset;
    var marked := SetAccepting(ClearAccepting(glued), newEnd, true);
    assert marked.accepting == {newEnd};
    (marked, newEnd)
  }

  /**
    `build_repetition`: fresh states 0 (start) and 1 (accepting) around the
    inner fragment at offset 2, with the loop edges the kind asks for. A
    counted repetition aborts, but only once the inner tree has translated.
   */
  function BuildRepetition(kind: RepetitionKind, inner: Ast): (r: Outcome<Automaton>)
    ensures r.Ok? ==> WellFormed(r.value) && r.value.start == 0 && r.value.accepting == {1}
    ensures r.Ok? ==> !kind.Counted?
    ensures r.Err? ==> !r.error.ParserError?
    decreases inner, 1
  {
    var (a0, startState) := AddState(New());
    var (a1, endState) := AddState(a0);
    assert a1 == Automaton(2, 0, {}, []);
    match BuildTree(inner)
    case Err(e) => Err(e)
    case Panic => Panic
    case Ok(innerFragment) =>
      if |innerFragment.accepting| != 1 then Panic
      else WrapRepetition(a1, startState, endState, kind, innerFragment)
  }

  /** The rest of `build_repetition` once the inner fragment has passed its check. */
  function WrapRepetition(a: Automaton, startState: nat, endState: nat, kind: RepetitionKind, innerFragment: Automaton): (r: Outcome<Automaton>)
    requires WellFormed(a) && startState < a.states && endState < a.states
    requires Fragment(innerFragment)
    ensures r.Ok? <==> !kind.Counted?
    ensures r.Ok? ==> WellFormed(r.value) && r.value.start == startState && r.value.accepting == {endState}
  {
    var offset := a.states;
    var innerStart := innerFragment.start;
    var innerEnd := Sole(innerFragment.accepting);
    var merged := Merge(a, innerFragment);
    MergeWellFormed(a, innerFragment);
    var a2 := AddTransition(merged, startState, innerStart + offset, None);
    AddTransitionWellFormed(merged, startState, innerStart + offset, None);
    var a3 := AddTransition(a2, innerEnd + offset, endState, None);
    AddTransitionWellFormed(a2, innerEnd + offset, endState, None);
    match AddLoopEdges(a3, kind, startState, endState)
    case Ok(a4) =>
      var a5 := SetStart(a4, startState);
      var a6 := SetAccepting(ClearAccepting(a5), endState, true);
      assert a6.accepting == {endState};
      Ok(a6)
    case _ => Panic
  }

  /**
    The `match` on the repetition kind: `+` adds `end -> start`, `*` adds
    `start -> end` then `end -> start`, `?` adds `start -> end`, and any
    counted repetition panics.
   */
  function AddLoopEdges(a: Automaton, kind: RepetitionKind, startState: nat, endState: nat): (r: Outcome<Automaton>)
    requires WellFormed(a) && startState < a.states && endState < a.states
    ensures r.Ok? <==> !kind.Counted?
    ensures r.Ok? ==> WellFormed(r.value)
    ensures r.Ok? ==> r.value.states == a.states && r.value.start == a.start && r.value.accepting == a.accepting
    ensures r.Ok? ==> |r.value.transitions| >= |a.transitions|
    ensures r.Ok? ==> r.value.transitions[..|a.transitions|] == a.transitions
  {
    match kind
    case OneOrMore =>
      AddTransitionWellFormed(a, endState, startState, None);
      Ok(AddTransition(a, endState, startState, None))
    case ZeroOrMore =>
      var skip := AddTransition(a, startState, endState, None);
      AddTransitionWellFormed(a, startState, endState, None);
      AddTransitionWellFormed(skip, endState, startState, None);
      assert AddTransition(skip, endState, startState, None).transitions[..|a.transitions|] == a.transitions by {
        assert AddTransition(skip, endState, startState, None).transitions == a.transitions + [Epsilon(startState, endState), Epsilon(endState, startState)];
      }
      Ok(AddTransition(skip, endState, startState, None))
    case ZeroOrOne =>
      AddTransitionWellFormed(a, startState, endState, None);
      Ok(AddTransition(a, startState, endState, None))
    case Counted(_) => Panic
  }

  /**
    `build_alternation`: fresh states 0 (start) and 1 (accepting); every
    alternative is merged in and joined by `0 -> its start` and
    `its end -> 1`. Only after the loop is the accepting set reset to {1}.
   */
  function BuildAlternation(asts: seq<Ast>): (r: Outcome<Automaton>)
    ensures r.Ok? ==> WellFormed(r.value) && r.value.start == 0 && r.value.accepting == {1}
    ensures r.Err? ==> !r.error.ParserError?
    decreases asts, |asts| + 1
  {
    var (a0, startState) := AddState(New());
    var (a1, endState) := AddState(a0);
    match AltFold(asts, 0, a1, startState, endState)
    case Ok(a2) =>
      var a3 := SetStart(a2, startState);
      var a4 := SetAccepting(ClearAccepting(a3), endState, true);
      assert a4.accepting == {1};
      Ok(a4)
    case Err(e) => Err(e)
    case Panic => Panic
  }

  /** The alternation loop over the alternatives from index `i` on. */
  function AltFold(asts: seq<Ast>, i: nat, acc: Automaton, startState: nat, endState: nat): (r: Outcome<Automaton>)
    requires i <= |asts|
    requires WellFormed(acc) && startState < acc.states && endState < acc.states
    ensures r.Ok? ==> WellFormed(r.value) && r.value.states >= acc.states && r.value.start == acc.start
    ensures r.Err? ==> !r.error.ParserError?
    decreases asts, |asts| - i
  {
    if i == |asts| then Ok(acc)
    else
      match BuildTree(asts[i])
      case Err(e) => Err(e)
      case Panic => Panic
      case Ok(alternative) =>
        if |alternative.accepting| != 1 then Panic
        else AltFold(asts, i + 1, AltAppend(acc, alternative, startState, endState), startState, endState)
  }

  /**
    The body of the alternation loop for one translated alternative: merge it
    at the current state count and join it by `startState -> its start` and
    `its end -> endState`. Its accepting mark stays until the loop is over.
   */
  function AltAppend(acc: Automaton, alternative: Automaton, startState: nat, endState: nat): (r: Automaton)
    requires WellFormed(acc) && startState < acc.states && endState < acc.states
    requires Fragment(alternative)
    ensures WellFormed(r) && r.start == acc.start && r.states == acc.states + alternative.states
  {
    var altStart := alternative.start;
    var altEnd := Sole(alternative.accepting);
    var offset := acc.states;
    var merged := Merge(acc, alternative);
    MergeWellFormed(acc, alternative);
    var a1 := AddTransition(merged, startState, altStart + offset, None);
    AddTransitionWellFormed(merged, startState, altStart + offset, None);
    AddTransitionWellFormed(a1, altEnd + offset, endState, None);
    AddTransition(a1, altEnd + offset, endState, None)
  }
}

=== FILE: verdict.dfy ===
/**
  Which trees translate, and what the translator ignores.

  `Verdict` decides from the tree alone, without building any automaton,
  whether the translation succeeds, reports an error (and which one) or
  aborts. It is an independent account of the dispatch in `build_tree`:
  the lemma `TranslationVerdict` shows the two agree on every tree.

  `AllGreedy` rewrites every repetition of a tree to its greedy form, and
  `AllPositive` every bracketed class to its positive form; the lemmas
  `GreedinessIgnored` and `NegationIgnored` show that the translation does
  not change.
 */
module Verdicts {
  import opened Automata
  import opened RegexAst
  import opened Translator

  /** The only class shape the translator accepts: a bracket holding a single range. */
  predicate SupportedClass(cls: Class) {
    cls.Bracketed? && cls.kind.Item? && cls.kind.item.Range?
  }

  /** The error reported for a class of any other shape: the innermost part that is not supported. */
  function ClassError(cls: Class): TranslatorError
    requires !SupportedClass(cls)
  {
    match cls
    case OtherClass(_) => UnsupportedClass(cls)
    case Bracketed(_, kind) =>
      if kind.OtherSet? then UnsupportedClassSet(kind) else UnsupportedClassSetItem(kind.item)
  }

  /** An outcome with its automaton forgotten. */
  function Forget(o: Outcome<Automaton>): Outcome<()> {
    match o
    case Ok(_) => Ok(())
    case Err(e) => Err(e)
    case Panic => Panic
  }

  /**
    The outcome of translating `ast`. A literal succeeds; an unsupported
    node or class is an error naming it; a group is its content; a
    repetition fails as its operand does, and otherwise aborts when the
    operand is an empty concatenation or the repetition is counted; a
    concatenation or alternation is decided by its children.
   */
  function Verdict(ast: Ast): Outcome<()>
    decreases ast, 0
  {
    match ast
    case Concat(asts) => ChildrenVerdict(asts, 0)
    case Alternation(asts) => ChildrenVerdict(asts, 0)
    case Repetition(kind, _, inner) =>
      (match Verdict(inner)
       case Ok(_) => if EmptyConcat(inner) || kind.Counted? then Panic else Ok(())
       case failed => failed)
    case Literal(_) => Ok(())
    case Group(inner) => Verdict(inner)
    case ClassNode(cls) => if SupportedClass(cls) then Ok(()) else Err(ClassError(cls))
    case OtherAst(_) => Err(UnsupportedAst(ast))
  }

  /**
    The children from index `i` on, left to right: the first child that
    fails decides, and a child that is an empty concatenation aborts,
    since it leaves no accepting state to continue from.
   */
  function ChildrenVerdict(asts: seq<Ast>, i: nat): Outcome<()>
    requires i <= |asts|
    decreases asts, |asts| - i
  {
    if i == |asts| then Ok(())
    else
      match Verdict(asts[i])
      case Ok(_) => if EmptyConcat(asts[i]) then Panic else ChildrenVerdict(asts, i + 1)
      case failed => failed
  }

  /** The translation succeeds, fails or aborts exactly as `Verdict` says, with the same error. */
  lemma {:induction false} TranslationVerdict(ast: Ast)
    ensures Forget(BuildTree(ast)) == Verdict(ast)
    decreases ast, 0
  {
    match ast
    case Concat(asts) =>
      var (a0, startState) := AddState(New());
      var a1 := SetStart(a0, startState);
      assert BuildConcatenation(asts) == ConcatFold(asts, 0, a1, startState);
      ConcatFoldVerdict(asts, 0, a1, startState);
    case Alternation(asts) =>
      var (a0, startState) := AddState(New());
      var (a1, endState) := AddState(a0);
      AltFoldVerdict(asts, 0, a1, startState, endState);
    case Repetition(kind, greedy, inner) =>
      TranslationVerdict(inner);
      RepetitionVerdict(kind, greedy, inner);
    case Literal(_) =>
    case Group(inner) =>
      TranslationVerdict(inner);
    case ClassNode(cls) =>
    case OtherAst(_) =>
  }

  /** `build_repetition` fails as its operand does, and otherwise aborts exactly when `Verdict` says so. */
  lemma RepetitionVerdict(kind: RepetitionKind, greedy: bool, inner: Ast)
    requires Forget(BuildTree(inner)) == Verdict(inner)
    ensures Forget(BuildTree(Repetition(kind, greedy, inner))) ==
              match Verdict(inner)
              case Ok(_) => if EmptyConcat(inner) || kind.Counted? then Panic else Ok(())
              case failed => failed
  {
    var (a0, startState) := AddState(New());
    var (a1, endState) := AddState(a0);
    assert a1.states == 2 && WellFormed(a1) && startState == 0 && endState == 1;
  }

  /** The concatenation loop from child `i` on agrees with `ChildrenVerdict`, whatever it has built so far. */
  lemma {:induction false} ConcatFoldVerdict(asts: seq<Ast>, i: nat, acc: Automaton, end: nat)
    requires i <= |asts|
    requires WellFormed(acc) && end < acc.states
    ensures Forget(ConcatFold(asts, i, acc, end)) == ChildrenVerdict(asts, i)
    decreases asts, |asts| - i
  {
    if i < |asts| {
      TranslationVerdict(asts[i]);
      var child := BuildTree(asts[i]);
      if child.Ok? && |child.value.accepting| == 1 {
        var (appended, newEnd) := ConcatAppend(acc, end, child.value);
        ConcatFoldVerdict(asts, i + 1, appended, newEnd);
      }
    }
  }

  /** The alternation loop from alternative `i` on agrees with `ChildrenVerdict`. */
  lemma {:induction false} AltFoldVerdict(asts: seq<Ast>, i: nat, acc: Automaton, startState: nat, endState: nat)
    requires i <= |asts|
    requires WellFormed(acc) && startState < acc.states && endState < acc.states
    ensures Forget(AltFold(asts, i, acc, startState, endState)) == ChildrenVerdict(asts, i)
    decreases asts, |asts| - i
  {
    if i < |asts| {
      TranslationVerdict(asts[i]);
      var alternative := BuildTree(asts[i]);
      if alternative.Ok? && |alternative.value.accepting| == 1 {
        AltFoldVerdict(asts, i + 1, AltAppend(acc, alternative.value, startState, endState), startState, endState);
      }
    }
  }

  // ---------------------------------------------------------------------
  // The greedy flag
  // ---------------------------------------------------------------------

  /** Every repetition of `ast` marked greedy, nothing else changed. */
  function AllGreedy(ast: Ast): Ast
    decreases ast
  {
    match ast
    case Concat(asts) => Concat(seq(|asts|, k requires 0 <= k < |asts| => AllGreedy(asts[k])))
    case Alternation(asts) => Alternation(seq(|asts|, k requires 0 <= k < |asts| => AllGreedy(asts[k])))
    case Repetition(kind, _, inner) => Repetition(kind, true, AllGreedy(inner))
    case Group(inner) => Group(AllGreedy(inner))
    case _ => ast
  }

  /** No repetition anywhere in `ast` is lazy. */
  predicate Greedy(ast: Ast)
    decreases ast
  {
    match ast
    case Concat(asts) => forall k | 0 <= k < |asts| :: Greedy(asts[k])
    case Alternation(asts) => forall k | 0 <= k < |asts| :: Greedy(asts[k])
    case Repetition(_, greedy, inner) => greedy && Greedy(inner)
    case Group(inner) => Greedy(inner)
    case _ => true
  }

  /**
    Laziness is not looked at: the tree with every repetition made greedy
    translates to exactly the same automaton, or the same error. So `a*?`
    is accepted and built as `a*`.
   */
  lemma {:induction false} GreedinessIgnored(ast: Ast)
    ensures Greedy(AllGreedy(ast))
    ensures BuildTree(AllGreedy(ast)) == BuildTree(ast)
    decreases ast, 0
  {
    match ast
    case Concat(asts) =>
      var greedy := seq(|asts|, k requires 0 <= k < |asts| => AllGreedy(asts[k]));
      assert AllGreedy(ast) == Concat(greedy);
      GreedyEach(asts, greedy);
      var (a0, startState) := AddState(New());
      var a1 := SetStart(a0, startState);
      assert BuildConcatenation(asts) == ConcatFold(asts, 0, a1, startState);
      assert BuildConcatenation(greedy) == ConcatFold(greedy, 0, a1, startState);
      ConcatFoldGreedy(asts, greedy, 0, a1, startState);
    case Alternation(asts) =>
      var greedy := seq(|asts|, k requires 0 <= k < |asts| => AllGreedy(asts[k]));
      assert AllGreedy(ast) == Alternation(greedy);
      GreedyEach(asts, greedy);
      var (a0, startState) := AddState(New());
      var (a1, endState) := AddState(a0);
      AltFoldGreedy(asts, greedy, 0, a1, startState, endState);
    case Repetition(kind, _, inner) =>
      GreedinessIgnored(inner);
    case Group(inner) =>
      GreedinessIgnored(inner);
    case Literal(_) =>
    case ClassNode(_) =>
    case OtherAst(_) =>
  }

  lemma {:induction false} GreedyEach(asts: seq<Ast>, greedy: seq<Ast>)
    requires |greedy| == |asts|
    requires forall k | 0 <= k < |asts| :: greedy[k] == AllGreedy(asts[k])
    ensures forall k | 0 <= k < |asts| :: Greedy(greedy[k])
    decreases asts, 0
  {
    forall k | 0 <= k < |asts| ensures Greedy(greedy[k]) {
      GreedinessIgnored(asts[k]);
    }
  }

  lemma {:induction false} ConcatFoldGreedy(asts: seq<Ast>, greedy: seq<Ast>, i: nat, acc: Automaton, end: nat)
    requires i <= |asts| && |greedy| == |asts|
    requires forall k | 0 <= k < |asts| :: greedy[k] == AllGreedy(asts[k])
    requires WellFormed(acc) && end < acc.states
    ensures ConcatFold(greedy, i, acc, end) == ConcatFold(asts, i, acc, end)
    decreases asts, |asts| - i
  {
    if i < |asts| {
      GreedinessIgnored(asts[i]);
      var child := BuildTree(asts[i]);
      if child.Ok? && |child.value.accepting| == 1 {
        var (appended, newEnd) := ConcatAppend(acc, end, child.value);
        ConcatFoldGreedy(asts, greedy, i + 1, appended, newEnd);
      }
    }
  }

  lemma {:induction false} AltFoldGreedy(asts: seq<Ast>, greedy: seq<Ast>, i: nat, acc: Automaton, startState: nat, endState: nat)
    requires i <= |asts| && |greedy| == |asts|
    requires forall k | 0 <= k < |asts| :: greedy[k] == AllGreedy(asts[k])
    requires WellFormed(acc) && startState < acc.states && endState < acc.states
    ensures AltFold(greedy, i, acc, startState, endState) == AltFold(asts, i, acc, startState, endState)
    decreases asts, |asts| - i
  {
    if i < |asts| {
      GreedinessIgnored(asts[i]);
      var alternative := BuildTree(asts[i]);
      if alternative.Ok? && |alternative.value.accepting| == 1 {
        AltFoldGreedy(asts, greedy, i + 1, AltAppend(acc, alternative.value, startState, endState), startState, endState);
      }
    }
  }

  // ---------------------------------------------------------------------
  // The negation flag of a bracketed class
  // ---------------------------------------------------------------------

  /** Every bracketed class of `ast` made positive (`[^...]` becomes `[...]`), nothing else changed. */
  function AllPositive(ast: Ast): Ast
    decreases ast
  {
    match ast
    case Concat(asts) => Concat(seq(|asts|, k requires 0 <= k < |asts| => AllPositive(asts[k])))
    case Alternation(asts) => Alternation(seq(|asts|, k requires 0 <= k < |asts| => AllPositive(asts[k])))
    case Repetition(kind, greedy, inner) => Repetition(kind, greedy, AllPositive(inner))
    case Group(inner) => Group(AllPositive(inner))
    case ClassNode(Bracketed(_, kind)) => ClassNode(Bracketed(false, kind))
    case _ => ast
  }

  /** No bracketed class anywhere in `ast` is negated. */
  predicate Positive(ast: Ast)
    decreases ast
  {
    match ast
    case Concat(asts) => forall k | 0 <= k < |asts| :: Positive(asts[k])
    case Alternation(asts) => forall k | 0 <= k < |asts| :: Positive(asts[k])
    case Repetition(_, _, inner) => Positive(inner)
    case Group(inner) => Positive(inner)
    case ClassNode(cls) => !(cls.Bracketed? && cls.negated)
    case _ => true
  }

  /**
    Negation is not looked at: the tree with every bracketed class made
    positive translates to exactly the same automaton, or the same error.
    So `[^a-c]` is accepted and built as `[a-c]`.
   */
  lemma {:induction false} NegationIgnored(ast: Ast)
    ensures Positive(AllPositive(ast))
    ensures BuildTree(AllPositive(ast)) == BuildTree(ast)
    decreases ast, 0
  {
    match ast
    case Concat(asts) =>
      var positive := seq(|asts|, k requires 0 <= k < |asts| => AllPositive(asts[k]));
      assert AllPositive(ast) == Concat(positive);
      PositiveEach(asts, positive);
      var (a0, startState) := AddState(New());
      var a1 := SetStart(a0, startState);
      assert BuildConcatenation(asts) == ConcatFold(asts, 0, a1, startState);
      assert BuildConcatenation(positive) == ConcatFold(positive, 0, a1, startState);
      ConcatFoldPositive(asts, positive, 0, a1, startState);
    case Alternation(asts) =>
      var positive := seq(|asts|, k requires 0 <= k < |asts| => AllPositive(asts[k]));
      assert AllPositive(ast) == Alternation(positive);
      PositiveEach(asts, positive);
      var (a0, startState) := AddState(New());
      var (a1, endState) := AddState(a0);
      AltFoldPositive(asts, positive, 0, a1, startState, endState);
    case Repetition(kind, _, inner) =>
      NegationIgnored(inner);
    case Group(inner) =>
      NegationIgnored(inner);
    case Literal(_) =>
    case ClassNode(_) =>
    case OtherAst(_) =>
  }

  lemma {:induction false} PositiveEach(asts: seq<Ast>, positive: seq<Ast>)
    requires |positive| == |asts|
    requires forall k | 0 <= k < |asts| :: positive[k] == AllPositive(asts[k])
    ensures forall k | 0 <= k < |asts| :: Positive(positive[k])
    decreases asts, 0
  {
    forall k | 0 <= k < |asts| ensures Positive(positive[k]) {
      NegationIgnored(asts[k]);
    }
  }

  lemma {:induction false} ConcatFoldPositive(asts: seq<Ast>, positive: seq<Ast>, i: nat, acc: Automaton, end: nat)
    requires i <= |asts| && |positive| == |asts|
    requires forall k | 0 <= k < |asts| :: positive[k] == AllPositive(asts[k])
    requires WellFormed(acc) && end < acc.states
    ensures ConcatFold(positive, i, acc, end) == ConcatFold(asts, i, acc, end)
    decreases asts, |asts| - i
  {
    if i < |asts| {
      NegationIgnored(asts[i]);
      var child := BuildTree(asts[i]);
      if child.Ok? && |child.value.accepting| == 1 {
        var (appended, newEnd) := ConcatAppend(acc, end, child.value);
        ConcatFoldPositive(asts, positive, i + 1, appended, newEnd);
      }
    }
  }

  lemma {:induction false} AltFoldPositive(asts: seq<Ast>, positive: seq<Ast>, i: nat, acc: Automaton, startState: nat, endState: nat)
    requires i <= |asts| && |positive| == |asts|
    requires forall k | 0 <= k < |asts| :: positive[k] == AllPositive(asts[k])
    requires WellFormed(acc) && startState < acc.states && endState < acc.states
    ensures AltFold(positive, i, acc, startState, endState) == AltFold(asts, i, acc, startState, endState)
    decreases asts, |asts| - i
  {
    if i < |asts| {
      NegationIgnored(asts[i]);
      var alternative := BuildTree(asts[i]);
      if alternative.Ok? && |alternative.value.accepting| == 1 {
        AltFoldPositive(asts, positive, i + 1, AltAppend(acc, alternative.value, startState, endState), startState, endState);
      }
    }
  }
}
